=== FILE: README.md ===
# Low-latency logger and AVX2 search, modelled in Dafny

This project models the core of a low-latency C++ logger and two SIMD string searches.

The logger has two parts:

- **Per-thread ring buffers.** Each producer thread owns a ring of 2048 message slots. `emplace` fills the slot at `write mod 2048` and advances the write cursor. `try_consume` copies out the slot at `read mod 2048` and advances the read cursor.
- **A consumer loop.** The loop visits every registered buffer in id order and drains it. Each message is serialised as one line, `[<timestamp>][T<thread id>] <arg> <arg> ... \n`, into the file stream bound to the message's log id. `stop` raises a flag. The loop then leaves and `flush_all_files` empties the stream table.

The searches are `avx2_strchr` and `avx2_strstr`. Both scan memory in 32-byte chunks, using byte-compare masks and count-trailing-zeros.

Modules, one per source component:

- `Wrappers`: `Option` and `Result`.
- `Decimal`: the decimal text `operator<<` produces for integers, and a parser for it. It is used to state the round trips of the line format.
- `LogTypes`: `LogArg`, `LogMsg` and the `set_arg`/`fill_args` overloads (Logger/bkp/logger.hpp).
- `RingBuffer`: `ThreadRingBuffer`, with `emplace` and `try_consume`.
- `Registry`: `Logger`, with `_register_thread`, `_get_or_create_buffer`, `get_buffer` and `for_each_buffer`.
- `FileSink`: the stream table and `write_log` of `LoggerManager` (Logger/ultralogger.cpp).
- `LoggerManager`: the manager as a state machine: `create_log_file`, `log`, one `run` iteration, `stop` and `flush_all_files`.
- `PatternMatching`: `avx2_strchr` and `avx2_strstr` (PatternMatching.cpp).

Modelling choices:

- Every operation is one atomic, sequential step.
- Cursors are unbounded naturals.
- A thread is an abstract key. Its `thread_local` id lives in the registry's `tids` map.
- Timestamps are parameters.
- Rendering a `double` or a pointer is done by functions passed in as parameters (`Renderers`).
- A file is the sequence of lines appended to it.
- `LogMsg` carries a `logId` and `emplace` takes one. `ultralogger.cpp` reads `msg.log_id` (Logger/ultralogger.cpp:55), and `ultralogger.h` calls a three-argument `emplace` (Logger/ultralogger.h:21). The `LogMsg` and `emplace` in Logger/bkp/logger.hpp:64-72 and 84 have neither. The model follows the manager's usage.
- A message's slot keeps all eight argument entries. `emplace` leaves entries past `arg_count` as they were, and non-string `set_arg` overloads leave `cstr_len` as it was. Output only ever reads the first `arg_count` entries.
- A search returns an offset from the start of the memory it scans. `nullptr` is `None`.
- A 32-byte load is a slice.
- `_mm256_movemask_epi8` of a byte compare is the set of matching offsets in `[0, 32)`. `__builtin_ctz` is that set's least element. `mask &= mask - 1` removes the least element.

## Model

| member | source | states |
|---|---|---|
| LogTypes.StrLen | Logger/bkp/logger.hpp:140 | `std::strlen` is the index of the first NUL byte: that byte is 0 and no earlier one is |
| LogTypes.ToInt64 | Logger/bkp/logger.hpp:148-154 | `static_cast<int64_t>` of an integral value lies in the int64 range and is congruent to the value modulo 2^64 |
| LogTypes.SetArg | Logger/bkp/logger.hpp:121-154 | each overload's tag: int64→I64, uint64→U64, double→F64, C string→CString, pointer→Pointer, other integral→I64. A double keeps its bit pattern and a pointer its address. A C string records the bytes its pointer addresses at `emplace`, with `cstr_len` = index of the first NUL. Other overloads leave `cstr_len` as it was. A well-formed entry stays well-formed |
| LogTypes.SetArgIntegerValue | Logger/bkp/logger.hpp:121-154 | the stored integer is the argument itself for int64/uint64, and its wrap to int64 for other integral types |
| LogTypes.FillArgs | Logger/bkp/logger.hpp:112-118 | argument k goes through `set_arg` into entry k, for every k below the argument count; later entries are untouched |
| LogTypes.FillArgsKeepsWellFormed | Logger/bkp/logger.hpp:112-118 | filling arguments keeps every entry's string length within its bytes |
| RingBuffer.NewRing | Logger/bkp/logger.hpp:77-80 | a new buffer has both cursors at 0 and the given thread id |
| RingBuffer.Emplace | Logger/bkp/logger.hpp:84-97 | write cursor +1, read cursor unchanged, only slot `write mod 2048` changes. That slot gets the timestamp, `fmt`, log id, the buffer's thread id, `msg_id = write mod 2^32` and `arg_count` = number of arguments. Its entries are `set_arg` of the arguments and the rest stay as they were |
| RingBuffer.TryConsume | Logger/bkp/logger.hpp:99-109 | succeeds iff read ≠ write. On failure nothing changes, including `out`. On success the read cursor advances by one and `out` is the head of the pending sequence, the rest stays pending |
| RingBuffer.EmplaceAppends | Logger/bkp/logger.hpp:84-109 | when the producer has not lapped the consumer, `emplace` appends exactly the written message to the pending sequence |
| RingBuffer.Drain | Logger/ultralogger.cpp:32-35 | calling `try_consume` until it fails yields exactly the pending sequence and leaves read = write; slots and id are unchanged |
| RingBuffer.DrainAfterOverflow | Logger/bkp/logger.hpp:99-109 | even after overflow a drain yields write − read messages, the i-th being slot `(read + i) mod 2048`, so it repeats with period 2048 |
| RingBuffer.FifoRoundTrip | Logger/bkp/logger.hpp:84-109 | over any interleaving of pushes and pops without a lap: popped ++ still pending = pending before ++ pushed |
| RingBuffer.SlotsAfterPushAll | Logger/bkp/logger.hpp:87-88 | after a burst of pushes, each slot holds the message of the last push that landed in it |
| RingBuffer.OverflowDrain | Logger/bkp/logger.hpp:84-109 | draining after a burst on an empty buffer yields one message per push; the i-th is the last push that shared its slot |
| RingBuffer.OverflowByOne | Logger/bkp/logger.hpp:84-109 | after one push more than the capacity, the drain starts with the newest message and yields it twice; the first push is lost |
| RingBuffer.BurstRoundTrip | Logger/bkp/logger.hpp:84-109 | a burst of at most 2048 pushes on an empty buffer drains to exactly the pushed messages, in order |
| Registry.NewLogger | Logger/bkp/logger.hpp:189 | a new registry has no buffers and counter 0, and satisfies the registry invariant (ids in the table are below the counter and distinct; a buffer exists only for a handed-out id, and it carries that id) |
| Registry.RegisterThread | Logger/bkp/logger.hpp:191-196 | a known thread keeps its id. A new thread takes the counter's value, and the counter advances. Registration fails iff 64 ids are taken |
| Registry.GetOrCreateBuffer | Logger/bkp/logger.hpp:197-202 | the slot for the id is present afterwards. An existing buffer is kept. A new one starts empty. Other slots are unchanged |
| Registry.GetOrCreateIdempotent | Logger/bkp/logger.hpp:197-202 | a second call changes nothing |
| Registry.GetBuffer | Logger/bkp/logger.hpp:171-202 | the thread's id is recorded and its buffer present. A known thread gets its old id with no change. A new thread gets the counter's value, the counter advances and only that thread's entry is added to the id table; every other thread keeps its id. A new thread's buffer is new and empty (both cursors 0, its own id). It fails iff a new thread finds 64 ids taken. Only the thread's own buffer can change |
| Registry.GetBufferIdempotent | Logger/bkp/logger.hpp:171-176 | a thread's second call returns the same id and changes nothing |
| Registry.DistinctThreadsDistinctBuffers | Logger/bkp/logger.hpp:171-202 | two threads get different ids, and the second's call leaves the first's buffer alone |
| Registry.FreshThreadGetsNextId | Logger/bkp/logger.hpp:191-196 | a new thread gets id = number of registered threads; with 64 registered it fails |
| Registry.IdsAreDense | Logger/bkp/logger.hpp:191-196 | the ids handed out are exactly 0 .. counter − 1, one per registered thread |
| Registry.VisitOrder | Logger/bkp/logger.hpp:178-186 | `for_each_buffer` visits exactly the present buffers, in strictly increasing id order |
| FileSink.LogFileName | Logger/ultralogger.cpp:45-47 | the file name is `log_` + name + `.log` |
| FileSink.LogFileNameRoundTrip | Logger/ultralogger.cpp:45-47 | the name can be recovered from the file name |
| FileSink.FileKey | Logger/ultralogger.cpp:49 | the `int` file id becomes a `uint32_t` map key: unchanged if non-negative, +2^32 if negative |
| FileSink.FileKeyInjective | Logger/ultralogger.cpp:49 | distinct file ids give distinct keys |
| FileSink.CreatingLogFile | Logger/ultralogger.cpp:42-51 | returns the id. The key is bound to `log_<name>.log`, replacing an earlier binding; other bindings stay. The file is created empty if missing, otherwise kept (append mode) |
| FileSink.RenderArg | Logger/ultralogger.cpp:59-78 | every argument prints as non-empty text ending in a space. A double prints as the renderer's text for its own bits and a pointer as the renderer's text for its own address, each followed by a space |
| FileSink.Join | Logger/ultralogger.cpp:57-79 | the pieces written one after another: the total length is the sum of their lengths and piece k sits exactly between the k-th and (k+1)-th running sums |
| FileSink.RenderArgs | Logger/ultralogger.cpp:57-79 | the argument section is each argument's text in order and nothing else: argument k's text sits exactly between Offset k and Offset k+1, and the length is Offset of the count. No arguments print nothing; otherwise the text ends in a space |
| FileSink.FormatLine | Logger/ultralogger.cpp:56-80 | the line `write_log` emits is the header, then the argument section of the first `arg_count` arguments, then a newline; so it starts with `[` and ends with a newline |
| FileSink.FormatLineShape | Logger/ultralogger.cpp:53-81 | every line ends in a newline, preceded by a space when there are arguments. With no arguments the line is the header alone |
| FileSink.HeaderRoundTrip | Logger/ultralogger.cpp:56 | the timestamp and thread id can be parsed back from any line |
| FileSink.IntArgRoundTrip | Logger/ultralogger.cpp:62-67 | an I64 or U64 argument's text parses back to its value, followed by the separating space |
| FileSink.ParseHeaderThen | Logger/ultralogger.cpp:56 | the header parses back to the timestamp and thread id, and what follows it is returned untouched |
| FileSink.IntArgsRoundTrip | Logger/ultralogger.cpp:57-80 | an argument section made only of I64 and U64 arguments, followed by the newline, parses back to the list of their values, in order |
| FileSink.IntLineRoundTrip | Logger/ultralogger.cpp:53-81 | a whole line whose first `arg_count` arguments are all I64 or U64 parses back to its timestamp, thread id and exactly those `arg_count` values, in order |
| FileSink.CStringArgBytes | Logger/ultralogger.cpp:71-74 | a string argument prints exactly its `cstr_len` bytes, then a space |
| FileSink.FormatIgnoresStaleSlots | Logger/ultralogger.cpp:57-59 | two messages that agree on header, `arg_count` and the first `arg_count` entries print the same line |
| FileSink.GetFileStream | Logger/ultralogger.cpp:83-88 | a bound log id yields the file the table binds it to, which exists |
| FileSink.WriteLog | Logger/ultralogger.cpp:53-81 | the message's line is appended to the file bound to its log id and to no other file; the table is unchanged |
| FileSink.LinesForAppend | Logger/ultralogger.cpp:33-35 | the lines a file gets from two batches are its lines from the first, then from the second |
| FileSink.WriteAll | Logger/ultralogger.cpp:33-35 | writing a batch appends, to each file, the lines of the batch's messages bound to it, in order |
| LoggerManager.Init | Logger/ultralogger.cpp:9-13 | the manager starts with an empty table, no threads, no buffer allocated in any of the 64 slots, the flag clear and the loop running |
| LoggerManager.CreateLogFile | Logger/ultralogger.cpp:15-18 | `create_log_file` returns the id and binds it to `log_<name>.log`. That file is created empty when absent and otherwise keeps its contents; no other file changes. Buffers and flags are unchanged |
| LoggerManager.Log | Logger/ultralogger.h:18-22 | fails iff the calling thread cannot be registered. Otherwise only the caller's buffer changes, by one `emplace`; the id table and counter are those registration left, and the files are unchanged |
| LoggerManager.LogAppendsToOwnBuffer | Logger/ultralogger.h:18-22 | without a lap, `log` appends exactly one message to the caller's pending sequence |
| LoggerManager.DrainBuffers | Logger/ultralogger.cpp:30-35 | draining the listed buffers leaves each with read = write and the others alone. Each file gains the lines of the collected messages bound to it, buffer by buffer, in pop order |
| LoggerManager.DrainRound | Logger/ultralogger.cpp:27-38 | after a round every present buffer is empty (read = write, slots kept). Each file gains the round's lines for it, in id-then-pop order. The table, the id table, the counter and the flags are unchanged |
| LoggerManager.FlushAllFiles | Logger/ultralogger.cpp:90-101 | the table is empty afterwards; written lines stay in their files and the loop has ended |
| LoggerManager.RunStep | Logger/ultralogger.cpp:25-40 | one turn of `run` keeps the manager's invariants. With the flag clear, the loop keeps running and the table stays. Each file gains exactly the lines of the round's messages bound to it, in id-then-pop order. Every present buffer ends with nothing pending. With the flag set, the loop ends, the table is emptied, and the files and buffers are left as they were |
| LoggerManager.Stop | Logger/ultralogger.cpp:20-23 | `stop` raises the stop flag and changes nothing else |
| LoggerManager.StopSkipsFinalDrain | Logger/ultralogger.cpp:20-40 | after `stop`, the next turn does no drain. The table is emptied, the files are unchanged, and every message still pending stays pending (it is never written) |
| LoggerManager.RoundEmptiesBuffers | Logger/ultralogger.cpp:27-36 | with the flag clear, a turn leaves nothing pending in any buffer |
| PatternMatching.MoveMask | PatternMatching.cpp:17-21 | offset i is in the mask iff byte i of the chunk equals the broadcast byte |
| PatternMatching.Ctz | PatternMatching.cpp:25 | the result is in the mask and no element is smaller |
| PatternMatching.StrchrSpec | PatternMatching.cpp:9-35 | the result is the first needle byte before the end of the terminator's 32-byte chunk; null iff there is none there |
| PatternMatching.Strchr | PatternMatching.cpp:9-35 | the chunk loop (match checked before NUL) returns exactly that result |
| PatternMatching.StrchrFindsFirstBeforeNul | PatternMatching.cpp:14-33 | a needle byte that occurs before the terminator is returned at its first occurrence, as `strchr` would |
| PatternMatching.StrchrNulFindsTerminator | PatternMatching.cpp:17-27 | searching for `'\0'` returns the terminator's offset |
| PatternMatching.StrchrPastTerminator | PatternMatching.cpp:23-31 | a needle byte after the terminator but in its chunk is still returned, where `strchr` returns null |
| PatternMatching.StrchrPastTerminatorExample | PatternMatching.cpp:23-31 | bytes `00 61` and 30 zero bytes, needle `'a'`: offset 1 is returned, past the terminator |
| PatternMatching.StdStrchr | PatternMatching.cpp:9-35 | the C library meaning: the first needle byte up to and including the terminator, null iff none |
| PatternMatching.StrchrCorrected | PatternMatching.cpp:9-35 | the same chunk loop with the NUL test ordered against the match returns exactly the C library result |
| PatternMatching.FindFrom | PatternMatching.cpp:40-82 | the naive search returns the least occurrence at or after the start, or null iff there is none |
| PatternMatching.ScalarTail | PatternMatching.cpp:75-81 | the scalar tail returns the naive search from its start offset; it iterates iff that offset is a possible match position |
| PatternMatching.Strstr | PatternMatching.cpp:40-82 | an empty needle gives 0; a needle longer than the haystack gives null. Otherwise the chunk scan returns exactly the naive first occurrence, and the scalar tail never iterates |

## Left out

- Atomics, memory ordering and the producer/consumer interleaving are not modelled. Every operation is an atomic step. So the write cursor being bumped before the slot is filled (Logger/bkp/logger.hpp:87-96), and torn reads of a slot being overwritten, do not appear.
- `read_tsc` is not modelled; the timestamp is a parameter of `emplace`.
- Stream I/O, the mutex, `sleep_for` and thread creation are not modelled. A file is its sequence of lines, and `flush`/`close` leave it as written.
- The `consumer_thread.join()` in `flush_all_files` is not modelled. It is reached on the consumer thread itself, which makes it a self-join. In C++ that throws `std::system_error` (`resource_deadlock_would_occur`). Nothing in the consumer's lambda (Logger/ultralogger.cpp:11-12) catches it, so `std::terminate` aborts the process after the files are closed. The model's "the loop has ended" stands for that point; the abort is not modelled.
- `creating_log_file` takes no lock while `get_file_stream` does. This is a data race, which is a concurrency matter and is not modelled.
- `setprecision(15)` rendering of `double` and pointer printing are not modelled; they are parameters (`Renderers`).
- Cursors are unbounded naturals. The 64-bit wrap of `_write_idx`/`_read_idx` after 2^64 pushes is not modelled. `msg_id` is reduced modulo 2^32 explicitly.
- The slot index `idx & (LOGGER_RING_SIZE - 1)` is written as `idx mod 2048`. The two are equal because 2048 is a power of two; that equality is not proved here.
- `thread_local` storage is not modelled as such. A thread is an abstract key mapped to its id.
- Registry.RegisterThread: the source's `assert(myid < LOGGER_MAX_THREADS)` aborts in a debug build. In a release build it lets an out-of-range index through. The model returns an error and leaves the counter as it was, where `fetch_add` would already have advanced it.
- LogTypes.SetArg: the source stores only the string's pointer (Logger/bkp/logger.hpp:139) and the consumer reads the bytes when it writes the line (Logger/ultralogger.cpp:72). The model records the bytes at `emplace`, which is the same only if the caller keeps the string valid and unchanged until the message is consumed, as the logging contract requires.
- Overflow is modelled as the code has it, not as a lossless policy: once a producer laps the consumer, unread slots are overwritten and the next drain yields out-of-order and repeated messages (RingBuffer.OverflowDrain, RingBuffer.OverflowByOne). No per-buffer count of lost messages is kept, because the source keeps none.
- `run` performs no final drain after `stop` is seen, and the model follows that code (LoggerManager.StopSkipsFinalDrain).
- Messages whose log id has no bound stream are not modelled. `get_file_stream` would dereference `end()` for them, so draining requires every pending message's id to be bound.
- The loads in `avx2_strchr` and `avx2_strstr` read whole 32-byte chunks, possibly past the string or the haystack. The model requires the scanned memory to cover those chunks (`ScanLimit`, `ScanEnd`) and does not model reading past the allocation.
- The `fast_strchr`/`fast_strstr` wrappers and `main` in PatternMatching.cpp are not modelled. Logger/bkp/consumer.hpp and Logger/bkp/main.cpp are context, not part of this model.

## Findings

| source | as written | input that shows it | evidently intended | confidence | as-written member | corrected member |
|---|---|---|---|---|---|---|
| PatternMatching.cpp:23-31 | a chunk's needle match is reported before its NUL is considered, so a needle byte after the terminator in the same chunk is returned | memory `00 61` followed by 30 zero bytes, needle `'a'`: offset 1 is returned, one past the end of the empty string | `strchr` semantics: null when the needle does not occur up to the terminator | medium, not executed | PatternMatching.StrchrPastTerminatorExample | PatternMatching.StrchrCorrected |

=== FILE: decimal.dfy ===
/** Decimal text as a standard output stream writes integers: no padding,
    no leading zeros, a leading '-' for negative values. */
module Decimal {
  import opened Wrappers

  predicate IsDigit(c: char) {
    '0' <= c <= '9'
  }

  predicate AllDigits(s: string) {
    forall i :: 0 <= i < |s| ==> IsDigit(s[i])
  }

  function DigitChar(d: nat): (c: char)
    requires d < 10
    ensures IsDigit(c)
  {
    "0123456789"[d]
  }

  function DigitValue(c: char): (d: nat)
    requires IsDigit(c)
    ensures d < 10
  {
    (c as int) - ('0' as int)
  }

  lemma DigitValueOfChar(d: nat)
    requires d < 10
    ensures DigitValue(DigitChar(d)) == d
  {
  }

  /** The decimal spelling of `n`: a non-empty run of digits, without a leading zero unless n == 0. */
  function NatToString(n: nat): (s: string)
    ensures |s| > 0
    ensures AllDigits(s)
    ensures |s| > 1 ==> s[0] != '0'
    decreases n
  {
    if n < 10 then [DigitChar(n)] else NatToString(n / 10) + [DigitChar(n % 10)]
  }

  /** The decimal spelling of a signed value: '-' followed by the magnitude when negative. */
  function IntToString(i: int): (s: string)
    ensures |s| > 0
    ensures i < 0 <==> s[0] == '-'
    ensures i >= 0 ==> AllDigits(s)
    ensures i < 0 ==> AllDigits(s[1..]) && |s| > 1
  {
    if i < 0 then "-" + NatToString(-i) else NatToString(i)
  }

  /** The number a run of digits denotes (most significant digit first). */
  function DigitsValue(s: string): nat
    requires AllDigits(s)
  {
    if |s| == 0 then 0 else DigitsValue(s[..|s| - 1]) * 10 + DigitValue(s[|s| - 1])
  }

  /** Reading the spelling back gives the number. */
  lemma {:induction false} NatToStringRoundTrip(n: nat)
    ensures DigitsValue(NatToString(n)) == n
    decreases n
  {
    var s := NatToString(n);
    if n < 10 {
      DigitValueOfChar(n);
    } else {
      NatToStringRoundTrip(n / 10);
      assert s[..|s| - 1] == NatToString(n / 10);
      DigitValueOfChar(n % 10);
    }
  }

  /** The length of the longest run of digits at the front of `s`. */
  function DigitPrefixLen(s: string): (k: nat)
    ensures k <= |s|
    ensures AllDigits(s[..k])
    ensures k < |s| ==> !IsDigit(s[k])
  {
    if |s| > 0 && IsDigit(s[0]) then
      var k := 1 + DigitPrefixLen(s[1..]);
      assert s[..k] == [s[0]] + s[1..][..k - 1];
      k
    else 0
  }

  /** Reads an unsigned decimal number off the front of `s`, returning it and what follows. */
  function ParseNat(s: string): (r: Option<(nat, string)>)
    ensures r.None? <==> (|s| == 0 || !IsDigit(s[0]))
    ensures r.Some? ==> |r.value.1| < |s|
  {
    var k := DigitPrefixLen(s);
    if k == 0 then None else Some((DigitsValue(s[..k]), s[k..]))
  }

  /** Reads a signed decimal number ('-' then digits, or digits) off the front of `s`. */
  function ParseInt(s: string): (r: Option<(int, string)>)
    ensures r.Some? ==> |r.value.1| < |s|
  {
    if |s| > 0 && s[0] == '-' then
      match ParseNat(s[1..])
      case None => None
      case Some((n, rest)) => var v: int := -(n as int); Some((v, rest))
    else
      match ParseNat(s)
      case None => None
      case Some((n, rest)) => var v: int := n; Some((v, rest))
  }

  predicate StartsWithDigit(s: string) {
    |s| > 0 && IsDigit(s[0])
  }

  lemma {:induction false} DigitPrefixOfDigits(d: string, rest: string)
    requires AllDigits(d)
    requires !StartsWithDigit(rest)
    ensures DigitPrefixLen(d + rest) == |d|
    decreases |d|
  {
    if |d| > 0 {
      assert (d + rest)[1..] == d[1..] + rest;
      DigitPrefixOfDigits(d[1..], rest);
    } else {
      assert d + rest == rest;
    }
  }

  /** Spelling a number and then parsing it back recovers the number and leaves the rest of the text,
      provided the text that follows does not itself start with a digit. */
  lemma ParseNatRoundTrip(n: nat, rest: string)
    requires !StartsWithDigit(rest)
    ensures ParseNat(NatToString(n) + rest) == Some((n, rest))
  {
    var d := NatToString(n);
    DigitPrefixOfDigits(d, rest);
    assert (d + rest)[..|d|] == d;
    assert (d + rest)[|d|..] == rest;
    NatToStringRoundTrip(n);
  }

  lemma ParseIntRoundTrip(i: int, rest: string)
    requires !StartsWithDigit(rest)
    ensures ParseInt(IntToString(i) + rest) == Some((i, rest))
  {
    if i < 0 {
      ParseNegRoundTrip(i, rest);
    } else {
      ParseNonNegRoundTrip(i, rest);
    }
  }

  lemma ParseNegRoundTrip(i: int, rest: string)
    requires i < 0 && !StartsWithDigit(rest)
    ensures ParseInt(IntToString(i) + rest) == Some((i, rest))
  {
    var t := NatToString(-i) + rest;
    ParseNatRoundTrip(-i, rest);
    ParseMinus(t, -i, rest);
    SeqAssoc("-", NatToString(-i), rest);
  }

  /** A minus sign in front of a parsed number negates it. */
  lemma ParseMinus(t: string, n: nat, rest: string)
    requires ParseNat(t) == Some((n, rest))
    ensures var v: int := -(n as int); ParseInt("-" + t) == Some((v, rest))
  {
    assert ("-" + t)[1..] == t;
  }

  lemma ParseNonNegRoundTrip(i: int, rest: string)
    requires i >= 0 && !StartsWithDigit(rest)
    ensures ParseInt(IntToString(i) + rest) == Some((i, rest))
  {
    var s := IntToString(i) + rest;
    assert s == NatToString(i) + rest;
    assert s[0] != '-';
    ParseNatRoundTrip(i, rest);
  }
}

=== FILE: file_sink.dfy ===
/** The file side of `LoggerManager` (ultralogger.cpp): the table from log id to output file,
    the file name built by `creating_log_file`, and the one-line serialiser `write_log`.
    Files are modelled as the sequence of records appended to them; one `write_log` call appends
    one record (a string ending in a newline). */
module FileSink {
  import opened Wrappers
  import opened LogTypes
  import opened Decimal

  type Path = string

  /** A C++ `int`. */
  type i32 = x: int | -0x8000_0000 <= x < 0x8000_0000

  /** `_file_map` (log id to the file its stream writes) and the file system it writes into. */
  datatype Sink = Sink(files: map<u32, Path>, fs: map<Path, seq<string>>)

  /** Every bound stream writes to a file that exists. */
  predicate Valid(s: Sink) {
    forall id :: id in s.files ==> s.files[id] in s.fs
  }

  /** How doubles (`setprecision(15)`) and pointers are printed; both are implementation-defined
      and stay uninterpreted. */
  datatype Renderers = Renderers(f64: bv64 -> string, ptr: u64 -> string)

  /** The file name `creating_log_file` opens. */
  function LogFileName(name: string): (p: Path)
    ensures |p| == |name| + 8
    ensures p[..4] == "log_" && p[|p| - 4..] == ".log"
  {
    "log_" + name + ".log"
  }

  /** Recovers the name a log file was created under. */
  function NameOfLogFile(p: Path): string
    requires |p| >= 8
  {
    p[4..|p| - 4]
  }

  /** Different names never share a log file. */
  lemma LogFileNameRoundTrip(name: string)
    ensures NameOfLogFile(LogFileName(name)) == name
  {
    var p := LogFileName(name);
    assert p[4..|p| - 4] == name;
  }

  /** `_file_map[file_id]` converts the `int` id to `uint32_t`: negative ids wrap modulo 2^32. */
  function FileKey(fileId: i32): (k: u32)
    ensures fileId >= 0 ==> k == fileId
    ensures fileId < 0 ==> k == fileId + TWO_32
  {
    fileId % TWO_32
  }

  /** Distinct `int` ids land on distinct table keys. */
  lemma FileKeyInjective(a: i32, b: i32)
    requires FileKey(a) == FileKey(b)
    ensures a == b
  {
  }

  /** `creating_log_file`: opens `log_<name>.log` for appending (creating it empty when absent,
      keeping its contents otherwise), binds the id to it, replacing any earlier binding, and
      returns the id unchanged. */
  function CreatingLogFile(s: Sink, name: string, fileId: i32): (res: (Sink, i32))
    requires Valid(s)
    ensures Valid(res.0)
    ensures res.1 == fileId
    ensures FileKey(fileId) in res.0.files && res.0.files[FileKey(fileId)] == LogFileName(name)
    ensures forall id :: id in s.files && id != FileKey(fileId) ==> id in res.0.files && res.0.files[id] == s.files[id]
    ensures res.0.files.Keys == s.files.Keys + {FileKey(fileId)}
    ensures LogFileName(name) in res.0.fs
    ensures LogFileName(name) in s.fs ==> res.0.fs == s.fs
    ensures LogFileName(name) !in s.fs ==> res.0.fs == s.fs[LogFileName(name) := []]
  {
    var path := LogFileName(name);
    var fs := if path in s.fs then s.fs else s.fs[path := []];
    (Sink(s.files[FileKey(fileId) := path], fs), fileId)
  }

  /** Bytes written with `ofstream::write`, one character per byte. */
  function BytesToString(b: seq<byte>): (s: string)
    ensures |s| == |b|
    ensures forall j :: 0 <= j < |b| ==> s[j] as int == b[j] as int
  {
    seq(|b|, j requires 0 <= j < |b| => (b[j] as int) as char)
  }

  /** One argument as `write_log` prints it, always followed by one space. */
  function RenderArg(a: LogArg, rend: Renderers): (s: string)
    requires ArgOk(a)
    ensures |s| > 0 && s[|s| - 1] == ' '
    ensures a.value.F64Val? ==> s == rend.f64(a.value.bits) + " "
    ensures a.value.PtrVal? ==> s == rend.ptr(a.value.addr) + " "
  {
    match a.value
    case I64Val(i) => IntToString(i) + " "
    case U64Val(u) => NatToString(u) + " "
    case F64Val(b) => rend.f64(b) + " "
    case CStrVal(mem) => BytesToString(mem[..a.cstrLen]) + " "
    case PtrVal(p) => rend.ptr(p) + " "
  }

  predicate ArgsOk(args: seq<LogArg>) {
    forall k :: 0 <= k < |args| ==> ArgOk(args[k])
  }

  /** Each argument's text, in argument order. */
  function Texts(args: seq<LogArg>, rend: Renderers): (ts: seq<string>)
    requires ArgsOk(args)
    ensures |ts| == |args|
    ensures forall k :: 0 <= k < |args| ==> ts[k] == RenderArg(args[k], rend)
  {
    seq(|args|, k requires 0 <= k < |args| => RenderArg(args[k], rend))
  }

  /** Where piece k starts when the pieces are written one after another: the total length of
      pieces 0..k-1. */
  function Start(ps: seq<string>, k: nat): nat
    requires k <= |ps|
  {
    if k == 0 then 0 else Start(ps, k - 1) + |ps[k - 1]|
  }

  /** Piece k occupies `s` exactly from Start(k) up to Start(k + 1). */
  predicate PieceAt(s: string, ps: seq<string>, k: nat)
    requires k < |ps|
  {
    Start(ps, k + 1) <= |s| && s[Start(ps, k)..Start(ps, k + 1)] == ps[k]
  }

  /** The pieces written one after another, and nothing else. */
  function Join(ps: seq<string>): (s: string)
    ensures |s| == Start(ps, |ps|)
    ensures forall k :: 0 <= k < |ps| ==> PieceAt(s, ps, k)
    decreases |ps|
  {
    if |ps| == 0 then ""
    else
      var rest := Join(ps[1..]);
      JoinStep(ps, rest);
      ps[0] + rest
  }

  lemma JoinStep(ps: seq<string>, rest: string)
    requires |ps| > 0
    requires |rest| == Start(ps[1..], |ps| - 1)
    requires forall k :: 0 <= k < |ps| - 1 ==> PieceAt(rest, ps[1..], k)
    ensures |ps[0] + rest| == Start(ps, |ps|)
    ensures forall k :: 0 <= k < |ps| ==> PieceAt(ps[0] + rest, ps, k)
  {
    StartTail(ps, |ps| - 1);
    forall k | 0 <= k < |ps|
      ensures PieceAt(ps[0] + rest, ps, k)
    {
      StartTail(ps, k);
      if k == 0 {
        assert (ps[0] + rest)[0..|ps[0]|] == ps[0];
      } else {
        StartTail(ps, k - 1);
        assert PieceAt(rest, ps[1..], k - 1);
        SliceAfter(ps[0], rest, Start(ps[1..], k - 1), Start(ps[1..], k));
      }
    }
  }

  /** Starts counted without the first piece are shifted by its length. */
  lemma {:induction false} StartTail(ps: seq<string>, k: nat)
    requires 0 < |ps| && k < |ps|
    ensures Start(ps, k + 1) == |ps[0]| + Start(ps[1..], k)
    decreases k
  {
    if k > 0 {
      StartTail(ps, k - 1);
      assert ps[1..][k - 1] == ps[k];
    }
  }

  lemma SliceAfter(x: string, y: string, a: nat, b: nat)
    requires a <= b <= |y|
    ensures (x + y)[|x| + a..|x| + b] == y[a..b]
  {
  }

  /** Where argument k's text starts in the argument section: the total length of the texts of
      arguments 0..k-1. */
  function Offset(args: seq<LogArg>, k: nat, rend: Renderers): nat
    requires ArgsOk(args) && k <= |args|
  {
    Start(Texts(args, rend), k)
  }

  /** `write_log`'s argument section: each argument's text followed by its space, in argument
      order. Argument k's text sits exactly from Offset(k) up to Offset(k + 1), and nothing else
      is written. */
  function RenderArgs(args: seq<LogArg>, rend: Renderers): (s: string)
    requires ArgsOk(args)
    ensures |s| == Offset(args, |args|, rend)
    ensures forall k :: 0 <= k < |args| ==> PieceAt(s, Texts(args, rend), k)
    ensures |args| > 0 ==> |s| > 0 && s[|s| - 1] == ' '
    ensures |args| == 0 ==> s == ""
  {
    var ts := Texts(args, rend);
    if |args| == 0 then Join(ts)
    else
      JoinLast(ts);
      Join(ts)
  }

  /** A join of pieces ends where its last piece ends. */
  lemma JoinLast(ps: seq<string>)
    requires |ps| > 0 && |ps[|ps| - 1]| > 0
    ensures var s, p := Join(ps), ps[|ps| - 1]; |s| > 0 && s[|s| - 1] == p[|p| - 1]
  {
    var s, last := Join(ps), |ps| - 1;
    assert PieceAt(s, ps, last);
  }

  /** `[<timestamp>][T<thread id>] ` followed by `tail`: the text `write_log` sends to the stream. */
  function HeaderThen(timestamp: u64, threadId: u32, tail: string): string {
    "[" + (NatToString(timestamp) + ("][T" + (NatToString(threadId) + ("] " + tail))))
  }

  /** `write_log`'s line: `[<timestamp>][T<thread id>] `, then each of the first `arg_count`
      arguments followed by a space, then a newline. */
  function FormatLine(m: Record, rend: Renderers): (line: string)
    ensures |line| > 1 && line[0] == '[' && line[|line| - 1] == '\n'
    ensures line == HeaderThen(m.timestamp, m.threadId, "") + (RenderArgs(m.args[..m.argCount], rend) + "\n")
  {
    var tail := RenderArgs(m.args[..m.argCount], rend) + "\n";
    var line := HeaderThen(m.timestamp, m.threadId, tail);
    assert line[|line| - 1] == tail[|tail| - 1];
    HeaderPrefix(m.timestamp, m.threadId, tail);
    line
  }

  /** The header does not depend on what follows it. */
  lemma HeaderPrefix(timestamp: u64, threadId: u32, tail: string)
    ensures HeaderThen(timestamp, threadId, tail) == HeaderThen(timestamp, threadId, "") + tail
  {
    var t, d := NatToString(timestamp), NatToString(threadId);
    assert "] " + "" == "] ";
    SeqAssoc(d, "] ", tail);
    SeqAssoc("][T", d + "] ", tail);
    SeqAssoc(t, "][T" + (d + "] "), tail);
    SeqAssoc("[", t + ("][T" + (d + "] ")), tail);
  }

  /** Every line ends in a newline; with at least one argument, a space comes right before it;
      with none, the line is the header alone. */
  lemma FormatLineShape(m: Record, rend: Renderers)
    ensures var line := FormatLine(m, rend);
      && |line| > 0 && line[|line| - 1] == '\n'
      && (m.argCount > 0 ==> |line| >= 2 && line[|line| - 2] == ' ')
      && (m.argCount == 0 ==> line == HeaderThen(m.timestamp, m.threadId, "\n"))
  {
    var body := RenderArgs(m.args[..m.argCount], rend);
    CharBeforeLast(FormatLine(m, rend), HeaderThen(m.timestamp, m.threadId, ""), body);
    if m.argCount == 0 {
      assert body + "\n" == "\n";
    }
  }

  lemma CharBeforeLast(line: string, header: string, body: string)
    requires line == header + (body + "\n")
    ensures |line| >= 1 && line[|line| - 1] == '\n'
    ensures |body| > 0 ==> |line| >= 2 && line[|line| - 2] == body[|body| - 1]
  {
  }

  /** Reads `[<timestamp>][T<thread id>] ` off the front of a line, returning what follows. */
  function ParseHeaderRest(line: string): Option<(nat, nat, string)> {
    if |line| == 0 || line[0] != '[' then None
    else match ParseNat(line[1..])
      case None => None
      case Some((ts, rest)) =>
        if |rest| < 3 || rest[..3] != "][T" then None
        else match ParseNat(rest[3..])
          case None => None
          case Some((tid, rest2)) =>
            if |rest2| < 2 || rest2[..2] != "] " then None else Some((ts, tid, rest2[2..]))
  }

  /** Reads the timestamp and thread id back off the front of a line. */
  function ParseHeader(line: string): Option<(nat, nat)> {
    match ParseHeaderRest(line)
    case None => None
    case Some((ts, tid, _)) => Some((ts, tid))
  }

  /** Reads an argument section of integers: each number ended by one space, then the newline. */
  function ParseInts(s: string): Option<seq<int>>
    decreases |s|
  {
    if s == "\n" then Some([])
    else match ParseInt(s)
      case None => None
      case Some((v, rest)) =>
        if |rest| == 0 || rest[0] != ' ' then None
        else match ParseInts(rest[1..])
          case None => None
          case Some(vs) => Some([v] + vs)
  }

  /** Reads a whole line whose arguments are all integers: timestamp, thread id and the values. */
  function ParseLine(line: string): Option<(nat, nat, seq<int>)> {
    match ParseHeaderRest(line)
    case None => None
    case Some((ts, tid, rest)) =>
      match ParseInts(rest)
      case None => None
      case Some(vs) => Some((ts, tid, vs))
  }

  /** The timestamp and thread id can be read back from every line, whatever the arguments. */
  lemma HeaderRoundTrip(m: Record, rend: Renderers)
    ensures ParseHeader(FormatLine(m, rend)) == Some((m.timestamp as nat, m.threadId as nat))
  {
    ParseHeaderThen(m.timestamp, m.threadId, RenderArgs(m.args[..m.argCount], rend) + "\n");
  }

  lemma ParseHeaderThen(ts: u64, tid: u32, tail: string)
    ensures ParseHeaderRest(HeaderThen(ts, tid, tail)) == Some((ts as nat, tid as nat, tail))
    ensures ParseHeader(HeaderThen(ts, tid, tail)) == Some((ts as nat, tid as nat))
  {
    var rest2 := "] " + tail;
    var rest := "][T" + (NatToString(tid) + rest2);
    var line := HeaderThen(ts, tid, tail);
    assert line == "[" + (NatToString(ts) + rest);
    ParseNatRoundTrip(ts, rest);
    assert rest[3..] == NatToString(tid) + rest2;
    ParseNatRoundTrip(tid, rest2);
    assert rest2[2..] == tail;
  }

  /** Integer arguments print as decimal text that reads back to their value; the space after
      them ends the number. */
  lemma IntArgRoundTrip(a: LogArg, rend: Renderers)
    requires a.value.I64Val? || a.value.U64Val?
    ensures ParseInt(RenderArg(a, rend)) == Some((IntPayload(a), " "))
  {
    if a.value.I64Val? {
      ParseIntRoundTrip(a.value.i, " ");
    } else {
      ParseIntRoundTrip(a.value.u, " ");
    }
  }

  /** An integer argument's text reads back as its value, leaving its space and what follows. */
  lemma IntArgThen(a: LogArg, rend: Renderers, rest: string)
    requires a.value.I64Val? || a.value.U64Val?
    ensures ParseInt(RenderArg(a, rend) + rest) == Some((IntPayload(a), " " + rest))
  {
    var v := IntPayload(a);
    assert RenderArg(a, rend) + rest == IntToString(v) + (" " + rest);
    ParseIntRoundTrip(v, " " + rest);
  }

  /** The argument section is the first argument's text followed by the rest's. */
  lemma RenderArgsCons(args: seq<LogArg>, rend: Renderers)
    requires ArgsOk(args) && |args| > 0
    ensures RenderArgs(args, rend) == RenderArg(args[0], rend) + RenderArgs(args[1..], rend)
  {
    assert Texts(args, rend)[1..] == Texts(args[1..], rend);
  }

  /** An all-integer argument section, with the line's newline after it, reads back value by value
      in argument order. */
  lemma {:induction false} IntArgsRoundTrip(args: seq<LogArg>, rend: Renderers)
    requires ArgsOk(args)
    requires forall k :: 0 <= k < |args| ==> args[k].value.I64Val? || args[k].value.U64Val?
    ensures var r := ParseInts(RenderArgs(args, rend) + "\n");
      && r.Some? && |r.value| == |args|
      && forall k :: 0 <= k < |args| ==> r.value[k] == IntPayload(args[k])
    decreases |args|
  {
    if |args| == 0 {
      assert RenderArgs(args, rend) + "\n" == "\n";
    } else {
      var tail := args[1..];
      IntArgsRoundTrip(tail, rend);
      IntArgsStep(args, rend);
    }
  }

  lemma IntArgsStep(args: seq<LogArg>, rend: Renderers)
    requires ArgsOk(args) && |args| > 0
    requires forall k :: 0 <= k < |args| ==> args[k].value.I64Val? || args[k].value.U64Val?
    requires var r := ParseInts(RenderArgs(args[1..], rend) + "\n");
      && r.Some? && |r.value| == |args| - 1
      && forall k :: 1 <= k < |args| ==> r.value[k - 1] == IntPayload(args[k])
    ensures var r := ParseInts(RenderArgs(args, rend) + "\n");
      && r.Some? && |r.value| == |args|
      && forall k :: 0 <= k < |args| ==> r.value[k] == IntPayload(args[k])
  {
    var body := RenderArgs(args[1..], rend);
    var vs := ParseInts(body + "\n").value;
    RenderArgsCons(args, rend);
    IntArgThen(args[0], rend, body + "\n");
    ParseIntsAfter(RenderArg(args[0], rend), body, RenderArgs(args, rend), IntPayload(args[0]), vs);
    ConsPayloads(args, vs);
  }

  lemma ParseIntsAfter(head: string, body: string, all: string, v: int, vs: seq<int>)
    requires all == head + body
    requires ParseInt(head + (body + "\n")) == Some((v, " " + (body + "\n")))
    requires ParseInts(body + "\n") == Some(vs)
    ensures ParseInts(all + "\n") == Some([v] + vs)
  {
    assert all + "\n" == head + (body + "\n");
    ParseIntsCons(all + "\n", v, body + "\n", vs);
  }

  lemma ConsPayloads(args: seq<LogArg>, vs: seq<int>)
    requires |args| > 0 && |vs| == |args| - 1
    requires forall k :: 0 <= k < |args| ==> args[k].value.I64Val? || args[k].value.U64Val?
    requires forall k :: 1 <= k < |args| ==> vs[k - 1] == IntPayload(args[k])
    ensures forall k :: 0 <= k < |args| ==> ([IntPayload(args[0])] + vs)[k] == IntPayload(args[k])
  {
  }

  lemma ParseIntsCons(s: string, v: int, rest: string, vs: seq<int>)
    requires ParseInt(s) == Some((v, " " + rest)) && ParseInts(rest) == Some(vs)
    ensures ParseInts(s) == Some([v] + vs)
  {
    assert |s| > 1;
    assert (" " + rest)[1..] == rest;
  }

  /** A line whose counted arguments are all integers reads back completely: the timestamp, the
      thread id, and the argument values in order. */
  lemma IntLineRoundTrip(m: Record, rend: Renderers)
    requires forall k :: 0 <= k < m.argCount ==> m.args[k].value.I64Val? || m.args[k].value.U64Val?
    ensures var r := ParseLine(FormatLine(m, rend));
      && r.Some? && r.value.0 == m.timestamp as nat && r.value.1 == m.threadId as nat
      && |r.value.2| == m.argCount as nat
      && forall k :: 0 <= k < m.argCount ==> r.value.2[k] == IntPayload(m.args[k])
  {
    LineHeaderRest(m, rend);
    IntLineAt(m, rend, FormatLine(m, rend));
  }

  /** After the header, a line holds its argument section and the newline. */
  lemma LineHeaderRest(m: Record, rend: Renderers)
    ensures ParseHeaderRest(FormatLine(m, rend))
      == Some((m.timestamp as nat, m.threadId as nat, RenderArgs(m.args[..m.argCount], rend) + "\n"))
  {
    ParseHeaderThen(m.timestamp, m.threadId, RenderArgs(m.args[..m.argCount], rend) + "\n");
  }

  lemma IntLineAt(m: Record, rend: Renderers, line: string)
    requires forall k :: 0 <= k < m.argCount ==> m.args[k].value.I64Val? || m.args[k].value.U64Val?
    requires ParseHeaderRest(line)
      == Some((m.timestamp as nat, m.threadId as nat, RenderArgs(m.args[..m.argCount], rend) + "\n"))
    ensures var r := ParseLine(line);
      && r.Some? && r.value.0 == m.timestamp as nat && r.value.1 == m.threadId as nat
      && |r.value.2| == m.argCount as nat
      && forall k :: 0 <= k < m.argCount ==> r.value.2[k] == IntPayload(m.args[k])
  {
    var args := m.args[..m.argCount];
    IntLineFromParts(line, m.timestamp as nat, m.threadId as nat, args, rend);
    assert forall k :: 0 <= k < m.argCount ==> args[k] == m.args[k];
  }

  lemma IntLineFromParts(line: string, ts: nat, tid: nat, args: seq<LogArg>, rend: Renderers)
    requires ArgsOk(args)
    requires forall k :: 0 <= k < |args| ==> args[k].value.I64Val? || args[k].value.U64Val?
    requires ParseHeaderRest(line) == Some((ts, tid, RenderArgs(args, rend) + "\n"))
    ensures var r := ParseLine(line);
      && r.Some? && r.value.0 == ts && r.value.1 == tid && |r.value.2| == |args|
      && forall k :: 0 <= k < |args| ==> r.value.2[k] == IntPayload(args[k])
  {
    IntArgsRoundTrip(args, rend);
  }

  /** A string argument prints exactly its recorded `cstr_len` bytes and then a space. */
  lemma CStringArgBytes(a: LogArg, rend: Renderers)
    requires a.value.CStrVal? && ArgOk(a)
    ensures var s := RenderArg(a, rend);
      && |s| == a.cstrLen + 1
      && (forall j :: 0 <= j < a.cstrLen ==> s[j] as int == a.value.mem[j] as int)
      && s[a.cstrLen] == ' '
  {
  }

  /** Slots past `arg_count`, and the stale `cstr_len` of non-string slots, never reach the file:
      two messages that agree on the header and on their counted arguments print the same line. */
  lemma FormatIgnoresStaleSlots(m1: Record, m2: Record, rend: Renderers)
    requires m1.timestamp == m2.timestamp && m1.threadId == m2.threadId
    requires m1.argCount == m2.argCount
    requires forall k :: 0 <= k < m1.argCount ==>
      m1.args[k].value == m2.args[k].value && (m1.args[k].value.CStrVal? ==> m1.args[k].cstrLen == m2.args[k].cstrLen)
    ensures FormatLine(m1, rend) == FormatLine(m2, rend)
  {
    SameRendering(m1.args[..m1.argCount], m2.args[..m2.argCount], rend);
  }

  lemma SameRendering(a1: seq<LogArg>, a2: seq<LogArg>, rend: Renderers)
    requires ArgsOk(a1) && ArgsOk(a2) && |a1| == |a2|
    requires forall k :: 0 <= k < |a1| ==>
      a1[k].value == a2[k].value && (a1[k].value.CStrVal? ==> a1[k].cstrLen == a2[k].cstrLen)
    ensures RenderArgs(a1, rend) == RenderArgs(a2, rend)
  {
    assert Texts(a1, rend) == Texts(a2, rend);
  }

  /** `get_file_stream`: the lookup is dereferenced without an end check, so an unbound id is a
      precondition; a bound id names a file that exists. */
  function GetFileStream(s: Sink, logId: u32): (p: Path)
    requires Valid(s) && logId in s.files
    ensures p == s.files[logId]
    ensures p in s.fs
  {
    s.files[logId]
  }

  /** `write_log`: appends the message's line to the file its log id is bound to and to no other. */
  function WriteLog(s: Sink, m: Record, rend: Renderers): (s': Sink)
    requires Valid(s) && m.logId in s.files
    ensures Valid(s') && s'.files == s.files && s'.fs.Keys == s.fs.Keys
    ensures forall p :: p in s.fs ==> s'.fs[p] == s.fs[p] + LineIf(s.files[m.logId] == p, m, rend)
  {
    var p := GetFileStream(s, m.logId);
    s.(fs := s.fs[p := s.fs[p] + [FormatLine(m, rend)]])
  }

  /** The line of `m` when `cond` holds, nothing otherwise. */
  function LineIf(cond: bool, m: Record, rend: Renderers): seq<string> {
    if cond then [FormatLine(m, rend)] else []
  }

  /** Every message names a bound log id. */
  predicate AllBound(files: map<u32, Path>, msgs: seq<Record>) {
    forall k :: 0 <= k < |msgs| ==> msgs[k].logId in files
  }

  /** The lines the messages `msgs` contribute to file `p`, in message order. */
  function LinesFor(files: map<u32, Path>, msgs: seq<Record>, p: Path, rend: Renderers): seq<string>
    requires AllBound(files, msgs)
  {
    if |msgs| == 0 then []
    else LineIf(files[msgs[0].logId] == p, msgs[0], rend) + LinesFor(files, msgs[1..], p, rend)
  }

  lemma {:induction false} LinesForAppend(files: map<u32, Path>, a: seq<Record>, b: seq<Record>, p: Path, rend: Renderers)
    requires AllBound(files, a) && AllBound(files, b)
    ensures AllBound(files, a + b)
    ensures LinesFor(files, a + b, p, rend) == LinesFor(files, a, p, rend) + LinesFor(files, b, p, rend)
    decreases |a|
  {
    if |a| > 0 {
      assert (a + b)[1..] == a[1..] + b;
      LinesForAppend(files, a[1..], b, p, rend);
    } else {
      assert a + b == b;
    }
  }

  /** `write_log` for each message in turn: every file receives exactly the lines of the messages
      bound to it, in message order, after what it already held. */
  function WriteAll(s: Sink, msgs: seq<Record>, rend: Renderers): (s': Sink)
    requires Valid(s) && AllBound(s.files, msgs)
    ensures Valid(s') && s'.files == s.files && s'.fs.Keys == s.fs.Keys
    ensures forall p :: p in s.fs ==> s'.fs[p] == s.fs[p] + LinesFor(s.files, msgs, p, rend)
    decreases |msgs|
  {
    if |msgs| == 0 then s
    else
      var s1 := WriteLog(s, msgs[0], rend);
      var s2 := WriteAll(s1, msgs[1..], rend);
      WriteAllStep(s, msgs, rend, s1, s2);
      s2
  }

  lemma WriteAllStep(s: Sink, msgs: seq<Record>, rend: Renderers, s1: Sink, s2: Sink)
    requires AllBound(s.files, msgs) && |msgs| > 0
    requires s1.files == s.files && s1.fs.Keys == s.fs.Keys
    requires forall p :: p in s.fs ==> s1.fs[p] == s.fs[p] + LineIf(s.files[msgs[0].logId] == p, msgs[0], rend)
    requires s2.files == s1.files && s2.fs.Keys == s1.fs.Keys
    requires forall p :: p in s1.fs ==> s2.fs[p] == s1.fs[p] + LinesFor(s1.files, msgs[1..], p, rend)
    ensures forall p :: p in s.fs ==> s2.fs[p] == s.fs[p] + LinesFor(s.files, msgs, p, rend)
  {
    forall p | p in s.fs
      ensures s2.fs[p] == s.fs[p] + LinesFor(s.files, msgs, p, rend)
    {
      var first := LineIf(s.files[msgs[0].logId] == p, msgs[0], rend);
      var rest := LinesFor(s.files, msgs[1..], p, rend);
      assert LinesFor(s.files, msgs, p, rend) == first + rest;
      assert s.fs[p] + first + rest == s.fs[p] + (first + rest);
    }
  }
}

=== FILE: log_types.dfy ===
/** The fixed-size records of the logger (`LogArg`, `LogMsg`), its tuning constants, and the
    argument encoder that `emplace` runs (`fill_args` / the `set_arg` overloads). */
module LogTypes {

  /** Slots per thread ring buffer; a power of two, so `idx & (RING_SIZE - 1)` is `idx % RING_SIZE`. */
  const RING_SIZE: nat := 2048
  /** Argument slots in every message. */
  const MAX_ARGS: nat := 8
  /** Bound on the number of producer threads. */
  const MAX_THREADS: nat := 64

  const TWO_32: nat := 0x1_0000_0000
  const TWO_63: nat := 0x8000_0000_0000_0000
  const TWO_64: nat := 0x1_0000_0000_0000_0000

  type byte = bv8
  type u8 = x: int | 0 <= x < 0x100
  type u32 = x: int | 0 <= x < 0x1_0000_0000
  type u64 = x: int | 0 <= x < 0x1_0000_0000_0000_0000
  type i64 = x: int | -0x8000_0000_0000_0000 <= x < 0x8000_0000_0000_0000

  /** The value of any C++ integral type fits between INT64_MIN and UINT64_MAX. */
  type IntegralValue = x: int | -0x8000_0000_0000_0000 <= x < 0x1_0000_0000_0000_0000

  /** A `const char *` format reference, kept as an address: the consumer never reads it. */
  type FmtRef = u64

  /** The tag of a log argument (`LogArgType`). */
  datatype LogArgType = I64 | U64 | F64 | CString | Pointer

  /** The union inside `LogArg`: which member was last written decides the constructor.
      A double is kept as its bit pattern; a C string as the bytes its pointer addresses. */
  datatype ArgValue =
    | I64Val(i: i64)
    | U64Val(u: u64)
    | F64Val(bits: bv64)
    | CStrVal(mem: seq<byte>)
    | PtrVal(addr: u64)

  /** One argument slot: the tagged union plus `cstr_len`, which only string arguments set. */
  datatype LogArg = LogArg(value: ArgValue, cstrLen: nat)

  /** One ring-buffer record. `args` always has MAX_ARGS entries; only the first `argCount` belong
      to this message. `logId` is the stream the message goes to. */
  datatype LogMsg = LogMsg(
    timestamp: u64,
    fmt: FmtRef,
    args: seq<LogArg>,
    argCount: u8,
    threadId: u32,
    msgId: u32,
    logId: u32)

  /** A value as a producer passes it to `log`, by its C++ parameter type. */
  datatype SourceArg =
    | Int64Arg(i: i64)            // int64_t
    | UInt64Arg(u: u64)           // uint64_t
    | DoubleArg(bits: bv64)       // double
    | CStrArg(mem: seq<byte>)     // const char *: the bytes from the pointer onward
    | VoidPtrArg(addr: u64)       // void *
    | IntegralArg(v: IntegralValue) // any other integral type (int, bool, char, unsigned long long, ...)

  function Tag(a: LogArg): LogArgType {
    match a.value
    case I64Val(_) => I64
    case U64Val(_) => U64
    case F64Val(_) => F64
    case CStrVal(_) => CString
    case PtrVal(_) => Pointer
  }

  /** A string argument must point at a NUL-terminated string, because `strlen` reads up to the NUL. */
  predicate SourceOk(a: SourceArg) {
    a.CStrArg? ==> 0 in a.mem
  }

  /** A string argument's recorded length stays within the bytes it addresses. */
  predicate ArgOk(a: LogArg) {
    a.value.CStrVal? ==> a.cstrLen <= |a.value.mem|
  }

  predicate WellFormed(m: LogMsg) {
    && |m.args| == MAX_ARGS
    && m.argCount <= MAX_ARGS
    && forall i :: 0 <= i < |m.args| ==> ArgOk(m.args[i])
  }

  /** The zero-initialised slot (`_data{}`). */
  const ZeroArg: LogArg := LogArg(I64Val(0), 0)
  const ZeroMsg: LogMsg :=
    LogMsg(0, 0, [ZeroArg, ZeroArg, ZeroArg, ZeroArg, ZeroArg, ZeroArg, ZeroArg, ZeroArg], 0, 0, 0, 0)

  /** A message whose argument slots are all well-formed; every ring slot holds one. */
  type Record = m: LogMsg | WellFormed(m) witness ZeroMsg

  /** `std::strlen`: the index of the first NUL byte. */
  function StrLen(mem: seq<byte>): (n: nat)
    requires 0 in mem
    ensures n < |mem| && mem[n] == 0
    ensures forall j :: 0 <= j < n ==> mem[j] != 0
  {
    if mem[0] == 0 then 0 else
      assert 0 in mem[1..];
      1 + StrLen(mem[1..])
  }

  /** `static_cast<int64_t>` of an integral value: two's-complement wrap-around modulo 2^64. */
  function ToInt64(v: IntegralValue): (r: i64)
    ensures (r - v) % TWO_64 == 0
  {
    if v < TWO_63 then v else v - TWO_64
  }

  /** The tag `set_arg` chooses for each parameter type; other integral types widen to I64. */
  function TagFor(a: SourceArg): LogArgType {
    match a
    case Int64Arg(_) => I64
    case IntegralArg(_) => I64
    case UInt64Arg(_) => U64
    case DoubleArg(_) => F64
    case CStrArg(_) => CString
    case VoidPtrArg(_) => Pointer
  }

  /** `set_arg`: overwrites the tag and the union of one slot. Only the string overload writes
      `cstr_len`; every other overload leaves whatever length the slot held. */
  function SetArg(slot: LogArg, a: SourceArg): (r: LogArg)
    requires SourceOk(a)
    ensures Tag(r) == TagFor(a)
    ensures a.CStrArg? ==> r.value.mem == a.mem && r.cstrLen < |a.mem| && a.mem[r.cstrLen] == 0
                           && forall j :: 0 <= j < r.cstrLen ==> a.mem[j] != 0
    ensures a.DoubleArg? ==> r.value == F64Val(a.bits)
    ensures a.VoidPtrArg? ==> r.value == PtrVal(a.addr)
    ensures !a.CStrArg? ==> r.cstrLen == slot.cstrLen
    ensures ArgOk(slot) ==> ArgOk(r)
  {
    match a
    case Int64Arg(i) => LogArg(I64Val(i), slot.cstrLen)
    case UInt64Arg(u) => LogArg(U64Val(u), slot.cstrLen)
    case DoubleArg(b) => LogArg(F64Val(b), slot.cstrLen)
    case CStrArg(mem) => LogArg(CStrVal(mem), StrLen(mem))
    case VoidPtrArg(p) => LogArg(PtrVal(p), slot.cstrLen)
    case IntegralArg(v) => LogArg(I64Val(ToInt64(v)), slot.cstrLen)
  }

  /** The integer an I64 or U64 slot carries, as the consumer prints it. */
  function IntPayload(a: LogArg): int
    requires a.value.I64Val? || a.value.U64Val?
  {
    if a.value.I64Val? then a.value.i else a.value.u
  }

  /** Integer arguments keep their value: exactly for int64_t, uint64_t and every integral value
      below 2^63; an unsigned value of 2^63 or more (possible only for a 64-bit unsigned
      type other than `uint64_t`) wraps. */
  lemma SetArgIntegerValue(slot: LogArg, a: SourceArg)
    requires a.Int64Arg? || a.UInt64Arg? || a.IntegralArg?
    ensures var r := SetArg(slot, a);
      && (r.value.I64Val? || r.value.U64Val?)
      && IntPayload(r) == (if a.Int64Arg? then a.i
                           else if a.UInt64Arg? then a.u
                           else if a.v < TWO_63 then a.v else a.v - TWO_64)
  {
  }

  predicate AllSourceOk(src: seq<SourceArg>) {
    forall i :: 0 <= i < |src| ==> SourceOk(src[i])
  }

  /** `fill_args`: the variadic recursion writes argument k into slot k and bumps `arg_count`
      once per argument. Returns the new argument array; the count is `|src|`. Slots past the
      last argument keep what the previous message in the slot left there. */
  function FillArgs(slots: seq<LogArg>, src: seq<SourceArg>): (r: seq<LogArg>)
    requires |src| <= |slots|
    requires AllSourceOk(src)
    ensures |r| == |slots|
    ensures forall k :: 0 <= k < |src| ==> r[k] == SetArg(slots[k], src[k])
    ensures forall k :: |src| <= k < |slots| ==> r[k] == slots[k]
    decreases |src|
  {
    if |src| == 0 then slots
    else
      var r := FillArgs(slots[1..], src[1..]);
      [SetArg(slots[0], src[0])] + r
  }

  /** Encoding keeps every argument slot well-formed. */
  lemma FillArgsKeepsWellFormed(slots: seq<LogArg>, src: seq<SourceArg>)
    requires |src| <= |slots|
    requires AllSourceOk(src)
    requires forall i :: 0 <= i < |slots| ==> ArgOk(slots[i])
    ensures var r := FillArgs(slots, src); forall i :: 0 <= i < |r| ==> ArgOk(r[i])
  {
    var r := FillArgs(slots, src);
    forall i | 0 <= i < |r| ensures ArgOk(r[i]) {
      if i < |src| {
        assert r[i] == SetArg(slots[i], src[i]);
      }
    }
  }
}

=== FILE: logger_manager.dfy ===
/** `LoggerManager` (ultralogger.cpp / ultralogger.h) as a state machine: the file sink, the stop
    flag, whether the consumer loop is still running, and the thread registry with its buffers.
    Each operation is one atomic step; the consumer thread, the mutex and the 10 microsecond
    sleep between rounds are not modelled. */
module LoggerManager {
  import opened Wrappers
  import opened LogTypes
  import opened RingBuffer
  import opened Registry
  import opened FileSink

  datatype State = State(sink: Sink, stopFlag: bool, running: bool, logger: Logger)

  ghost predicate Valid(st: State) {
    FileSink.Valid(st.sink) && Registry.Valid(st.logger)
  }

  /** The manager right after construction: no streams bound, no thread registered, the consumer
      loop started. `fs` is the file system as it was before. */
  function Init(fs: map<Path, seq<string>>): (st: State)
    ensures Valid(st) && st.running && !st.stopFlag
    ensures st.sink.files == map[] && st.sink.fs == fs && st.logger.counter == 0
    ensures st.logger.tids == map[] && forall i :: 0 <= i < MAX_THREADS ==> st.logger.buffers[i].None?
  {
    State(Sink(map[], fs), false, true, NewLogger())
  }

  /** `create_log_file` forwards to `creating_log_file`: binds the id to `log_<name>.log` and
      returns the id. */
  function CreateLogFile(st: State, name: string, fileId: i32): (res: (State, i32))
    requires Valid(st)
    ensures Valid(res.0) && res.1 == fileId
    ensures res.0.sink.files == st.sink.files[FileKey(fileId) := LogFileName(name)]
    ensures LogFileName(name) in st.sink.fs ==> res.0.sink.fs == st.sink.fs
    ensures LogFileName(name) !in st.sink.fs ==> res.0.sink.fs == st.sink.fs[LogFileName(name) := []]
    ensures res.0.logger == st.logger && res.0.stopFlag == st.stopFlag && res.0.running == st.running
  {
    var (sink, id) := CreatingLogFile(st.sink, name, fileId);
    (st.(sink := sink), id)
  }

  /** `log(log_id, fmt, args...)`: the calling thread's buffer (registered and created on first
      use) receives one `emplace`. Registering one thread too many is fatal. */
  function Log(st: State, t: ThreadKey, q: Request): (res: Result<State, RegistryError>)
    requires Valid(st) && RequestOk(q)
    ensures res.Err? <==> GetBuffer(st.logger, t).Err?
    ensures res.Ok? ==> Valid(res.value)
    ensures res.Ok? ==> res.value.sink == st.sink && res.value.stopFlag == st.stopFlag && res.value.running == st.running
    ensures res.Ok? ==>
      var (lg1, id) := GetBuffer(st.logger, t).value;
      && res.value.logger.buffers[id] == Some(Emplace(lg1.buffers[id].value, q))
      && (forall i :: 0 <= i < MAX_THREADS && i != id ==> res.value.logger.buffers[i] == st.logger.buffers[i])
      && res.value.logger.counter == lg1.counter && res.value.logger.tids == lg1.tids
  {
    match GetBuffer(st.logger, t)
    case Err(e) => Err(e)
    case Ok((lg1, id)) =>
      var lg2 := lg1.(buffers := lg1.buffers[id := Some(Emplace(lg1.buffers[id].value, q))]);
      ReplaceBufferValid(lg1, id, Emplace(lg1.buffers[id].value, q));
      Ok(st.(logger := lg2))
  }

  /** A producer that has not lapped the consumer adds exactly one message to its buffer's
      pending sequence, at the end. */
  lemma LogAppendsToOwnBuffer(st: State, t: ThreadKey, q: Request)
    requires Valid(st) && RequestOk(q)
    requires Log(st, t, q).Ok?
    ensures var (lg1, id) := GetBuffer(st.logger, t).value;
      var ring := lg1.buffers[id].value;
      ring.write - ring.read < RING_SIZE ==>
        Pending(Log(st, t, q).value.logger.buffers[id].value) == Pending(ring) + [Written(ring, q)]
  {
    var (lg1, id) := GetBuffer(st.logger, t).value;
    var ring := lg1.buffers[id].value;
    if ring.write - ring.read < RING_SIZE {
      EmplaceAppends(ring, q);
    }
  }

  /** Ids of present buffers, each at most once. */
  predicate IdsOk(bufs: seq<Option<Ring>>, ids: seq<nat>) {
    && (forall k :: 0 <= k < |ids| ==> ids[k] < |bufs| && bufs[ids[k]].Some?)
    && (forall k, l :: 0 <= k < l < |ids| ==> ids[k] != ids[l])
  }

  /** The messages a round hands to `write_log`: each listed buffer's pending messages in pop
      order, buffer after buffer. */
  function Collected(bufs: seq<Option<Ring>>, ids: seq<nat>): seq<Record>
    requires BuffersOk(bufs) && IdsOk(bufs, ids)
    decreases |ids|
  {
    if |ids| == 0 then [] else Pending(bufs[ids[0]].value) + Collected(bufs, ids[1..])
  }

  /** Every message waiting in the listed buffers names a bound stream. */
  predicate IdsBound(files: map<u32, Path>, bufs: seq<Option<Ring>>, ids: seq<nat>)
    requires BuffersOk(bufs) && IdsOk(bufs, ids)
  {
    forall k :: 0 <= k < |ids| ==> AllBound(files, Pending(bufs[ids[k]].value))
  }

  lemma {:induction false} CollectedBound(files: map<u32, Path>, bufs: seq<Option<Ring>>, ids: seq<nat>)
    requires BuffersOk(bufs) && IdsOk(bufs, ids) && IdsBound(files, bufs, ids)
    ensures AllBound(files, Collected(bufs, ids))
    decreases |ids|
  {
    if |ids| > 0 {
      CollectedBound(files, bufs, ids[1..]);
      var a: seq<Record> := Pending(bufs[ids[0]].value);
      var b: seq<Record> := Collected(bufs, ids[1..]);
      assert Collected(bufs, ids) == a + b;
      AllBoundAppend(files, a, b);
    }
  }

  /** Changing buffers outside `ids` does not change what a round over `ids` collects. */
  lemma {:induction false} CollectedFrame(bufs: seq<Option<Ring>>, bufs': seq<Option<Ring>>, ids: seq<nat>)
    requires BuffersOk(bufs) && IdsOk(bufs, ids) && BuffersOk(bufs')
    requires forall k :: 0 <= k < |ids| ==> bufs'[ids[k]] == bufs[ids[k]]
    ensures IdsOk(bufs', ids)
    ensures Collected(bufs', ids) == Collected(bufs, ids)
    decreases |ids|
  {
    if |ids| > 0 {
      CollectedFrame(bufs, bufs', ids[1..]);
    }
  }

  lemma AllBoundAppend(files: map<u32, Path>, a: seq<Record>, b: seq<Record>)
    requires AllBound(files, a) && AllBound(files, b)
    ensures AllBound(files, a + b)
  {
    forall k | 0 <= k < |a + b| ensures (a + b)[k].logId in files {
      if k >= |a| {
        assert (a + b)[k] == b[k - |a|];
      }
    }
  }

  /** Appending one batch's lines and then another's is appending the lines of both batches. */
  lemma DrainStep(files: map<u32, Path>, fs: map<Path, seq<string>>, fs1: map<Path, seq<string>>,
                  fs2: map<Path, seq<string>>, a: seq<Record>, b: seq<Record>, rend: Renderers)
    requires AllBound(files, a) && AllBound(files, b)
    requires fs1.Keys == fs.Keys && fs2.Keys == fs.Keys
    requires forall p :: p in fs ==> fs1[p] == fs[p] + LinesFor(files, a, p, rend)
    requires forall p :: p in fs1 ==> fs2[p] == fs1[p] + LinesFor(files, b, p, rend)
    ensures AllBound(files, a + b)
    ensures forall p :: p in fs ==> fs2[p] == fs[p] + LinesFor(files, a + b, p, rend)
  {
    forall p | p in fs
      ensures fs2[p] == fs[p] + LinesFor(files, a + b, p, rend)
    {
      LinesForAppend(files, a, b, p, rend);
      SeqAssoc(fs[p], LinesFor(files, a, p, rend), LinesFor(files, b, p, rend));
    }
  }

  /** What draining the listed buffers does to the manager: the stream table and flags stay,
      every stream receives the lines of the collected messages addressed to it, each listed
      buffer's read cursor catches up with its write cursor, and no other buffer changes. */
  predicate Drained(st: State, ids: seq<nat>, rend: Renderers, st': State)
    requires Valid(st) && IdsOk(st.logger.buffers, ids)
    requires IdsBound(st.sink.files, st.logger.buffers, ids)
    requires |st'.logger.buffers| == MAX_THREADS
  {
    CollectedBound(st.sink.files, st.logger.buffers, ids);
    && st'.stopFlag == st.stopFlag && st'.running == st.running
    && st'.logger.counter == st.logger.counter && st'.logger.tids == st.logger.tids
    && st'.sink.files == st.sink.files && st'.sink.fs.Keys == st.sink.fs.Keys
    && (forall p :: p in st.sink.fs ==>
          st'.sink.fs[p] == st.sink.fs[p] + LinesFor(st.sink.files, Collected(st.logger.buffers, ids), p, rend))
    && (forall k :: 0 <= k < |ids| ==>
          st'.logger.buffers[ids[k]] == Some(st.logger.buffers[ids[k]].value.(read := st.logger.buffers[ids[k]].value.write)))
    && (forall i :: 0 <= i < MAX_THREADS && i !in ids ==> st'.logger.buffers[i] == st.logger.buffers[i])
  }

  /** Drain buffer `id` alone: its pending messages go to `write_log` in pop order. */
  function DrainOne(st: State, id: nat, rend: Renderers): State
    requires Valid(st) && id < MAX_THREADS && st.logger.buffers[id].Some?
    requires AllBound(st.sink.files, Pending(st.logger.buffers[id].value))
  {
    var d := Drain(st.logger.buffers[id].value);
    st.(sink := WriteAll(st.sink, d.0, rend), logger := st.logger.(buffers := st.logger.buffers[id := Some(d.1)]))
  }

  lemma DrainOneValid(st: State, ids: seq<nat>, rend: Renderers)
    requires Valid(st) && IdsOk(st.logger.buffers, ids) && |ids| > 0
    requires IdsBound(st.sink.files, st.logger.buffers, ids)
    ensures var st1 := DrainOne(st, ids[0], rend);
      && Valid(st1) && IdsOk(st1.logger.buffers, ids[1..])
      && IdsBound(st1.sink.files, st1.logger.buffers, ids[1..])
      && Collected(st1.logger.buffers, ids[1..]) == Collected(st.logger.buffers, ids[1..])
  {
    var st1 := DrainOne(st, ids[0], rend);
    var id := ids[0];
    ReplaceBufferValid(st.logger, id, Drain(st.logger.buffers[id].value).1);
    CollectedFrame(st.logger.buffers, st1.logger.buffers, ids[1..]);
    forall k | 0 <= k < |ids[1..]|
      ensures AllBound(st1.sink.files, Pending(st1.logger.buffers[ids[1..][k]].value))
    {
      assert ids[1..][k] == ids[k + 1];
    }
  }

  /** Draining the first buffer and then the rest drains them all. */
  lemma DrainCombine(st: State, ids: seq<nat>, rend: Renderers, st2: State)
    requires Valid(st) && IdsOk(st.logger.buffers, ids) && |ids| > 0
    requires IdsBound(st.sink.files, st.logger.buffers, ids)
    requires |st2.logger.buffers| == MAX_THREADS
    requires var st1 := DrainOne(st, ids[0], rend);
      && Valid(st1) && IdsOk(st1.logger.buffers, ids[1..])
      && IdsBound(st1.sink.files, st1.logger.buffers, ids[1..])
      && Collected(st1.logger.buffers, ids[1..]) == Collected(st.logger.buffers, ids[1..])
      && Drained(st1, ids[1..], rend, st2)
    ensures Drained(st, ids, rend, st2)
  {
    var bufs := st.logger.buffers;
    var st1 := DrainOne(st, ids[0], rend);
    var d := Drain(bufs[ids[0]].value);
    CollectedBound(st.sink.files, bufs, ids[1..]);
    DrainStep(st.sink.files, st.sink.fs, st1.sink.fs, st2.sink.fs, d.0, Collected(bufs, ids[1..]), rend);
    assert Collected(bufs, ids) == d.0 + Collected(bufs, ids[1..]);
    assert d.1 == bufs[ids[0]].value.(read := bufs[ids[0]].value.write);
    CaughtUpCombine(bufs, st1.logger.buffers, st2.logger.buffers, ids);
  }

  /** Catching up the first listed buffer and then the rest catches up all of them. */
  lemma CaughtUpCombine(bufs: seq<Option<Ring>>, bufs1: seq<Option<Ring>>, bufs2: seq<Option<Ring>>, ids: seq<nat>)
    requires |bufs| == |bufs1| == |bufs2| == MAX_THREADS && IdsOk(bufs, ids) && |ids| > 0
    requires bufs1 == bufs[ids[0] := Some(bufs[ids[0]].value.(read := bufs[ids[0]].value.write))]
    requires forall k :: 0 <= k < |ids| - 1 ==>
      bufs2[ids[1..][k]] == Some(bufs1[ids[1..][k]].value.(read := bufs1[ids[1..][k]].value.write))
    requires forall i :: 0 <= i < MAX_THREADS && i !in ids[1..] ==> bufs2[i] == bufs1[i]
    ensures forall k :: 0 <= k < |ids| ==>
      bufs2[ids[k]] == Some(bufs[ids[k]].value.(read := bufs[ids[k]].value.write))
    ensures forall i :: 0 <= i < MAX_THREADS && i !in ids ==> bufs2[i] == bufs[i]
  {
    forall k | 0 <= k < |ids|
      ensures bufs2[ids[k]] == Some(bufs[ids[k]].value.(read := bufs[ids[k]].value.write))
    {
      if k > 0 {
        assert ids[1..][k - 1] == ids[k];
      } else {
        assert ids[0] !in ids[1..];
      }
    }
    forall i | 0 <= i < MAX_THREADS && i !in ids
      ensures bufs2[i] == bufs[i]
    {
      assert i !in ids[1..];
    }
  }

  /** The body of one `run` iteration over the listed buffers: drain each in turn with
      `try_consume` and pass every message to `write_log`. */
  function DrainBuffers(st: State, ids: seq<nat>, rend: Renderers): (st': State)
    requires Valid(st) && IdsOk(st.logger.buffers, ids)
    requires IdsBound(st.sink.files, st.logger.buffers, ids)
    ensures Valid(st') && Drained(st, ids, rend, st')
    decreases |ids|
  {
    if |ids| == 0 then
      CollectedBound(st.sink.files, st.logger.buffers, ids);
      st
    else
      DrainOneValid(st, ids, rend);
      var st2 := DrainBuffers(DrainOne(st, ids[0], rend), ids[1..], rend);
      DrainCombine(st, ids, rend, st2);
      st2
  }

  /** Every message a round writes: the buffers' pending messages, buffer by buffer in ascending
      id order, each buffer's in pop order. */
  function RoundMessages(lg: Logger): seq<Record>
    requires Registry.Valid(lg)
  {
    Collected(lg.buffers, VisitOrder(lg.buffers, 0))
  }

  /** Every message waiting in any buffer names a bound stream: `write_log` would dereference a
      missing table entry otherwise. */
  predicate RoundReady(st: State)
    requires BuffersOk(st.logger.buffers)
  {
    forall i :: 0 <= i < MAX_THREADS && st.logger.buffers[i].Some? ==>
      AllBound(st.sink.files, Pending(st.logger.buffers[i].value))
  }

  /** One round of `run`: `for_each_buffer` visits the present buffers in ascending id order and
      drains each until `try_consume` fails. Afterwards every buffer is empty (read == write, slots
      untouched), and each file holds its old records followed by the lines of the round's
      messages bound to it, in round order. */
  function DrainRound(st: State, rend: Renderers): (st': State)
    requires Valid(st) && RoundReady(st)
    ensures Valid(st')
    ensures st'.sink.files == st.sink.files && st'.sink.fs.Keys == st.sink.fs.Keys
    ensures AllBound(st.sink.files, RoundMessages(st.logger))
    ensures forall p :: p in st.sink.fs ==>
      st'.sink.fs[p] == st.sink.fs[p] + LinesFor(st.sink.files, RoundMessages(st.logger), p, rend)
    ensures forall i :: 0 <= i < MAX_THREADS ==>
      (st'.logger.buffers[i].Some? <==> st.logger.buffers[i].Some?)
    ensures forall i :: 0 <= i < MAX_THREADS && st.logger.buffers[i].Some? ==>
      st'.logger.buffers[i].value == st.logger.buffers[i].value.(read := st.logger.buffers[i].value.write)
    ensures st'.logger.counter == st.logger.counter && st'.logger.tids == st.logger.tids
    ensures st'.stopFlag == st.stopFlag && st'.running == st.running
  {
    RoundIdsOk(st);
    var st' := DrainBuffers(st, VisitOrder(st.logger.buffers, 0), rend);
    RoundDrained(st, rend, st');
    st'
  }

  lemma RoundIdsOk(st: State)
    requires Valid(st) && RoundReady(st)
    ensures IdsOk(st.logger.buffers, VisitOrder(st.logger.buffers, 0))
    ensures IdsBound(st.sink.files, st.logger.buffers, VisitOrder(st.logger.buffers, 0))
    ensures AllBound(st.sink.files, RoundMessages(st.logger))
  {
    var ids := VisitOrder(st.logger.buffers, 0);
    assert IdsOk(st.logger.buffers, ids);
    CollectedBound(st.sink.files, st.logger.buffers, ids);
  }

  /** Draining every buffer `for_each_buffer` visits touches every present buffer. */
  lemma RoundDrained(st: State, rend: Renderers, st': State)
    requires Valid(st) && RoundReady(st) && Valid(st')
    requires IdsOk(st.logger.buffers, VisitOrder(st.logger.buffers, 0))
    requires IdsBound(st.sink.files, st.logger.buffers, VisitOrder(st.logger.buffers, 0))
    requires Drained(st, VisitOrder(st.logger.buffers, 0), rend, st')
    ensures forall i :: 0 <= i < MAX_THREADS ==>
      (st'.logger.buffers[i].Some? <==> st.logger.buffers[i].Some?)
    ensures forall i :: 0 <= i < MAX_THREADS && st.logger.buffers[i].Some? ==>
      st'.logger.buffers[i].value == st.logger.buffers[i].value.(read := st.logger.buffers[i].value.write)
  {
    var ids := VisitOrder(st.logger.buffers, 0);
    forall i | 0 <= i < MAX_THREADS
      ensures st'.logger.buffers[i].Some? <==> st.logger.buffers[i].Some?
      ensures st.logger.buffers[i].Some? ==>
        st'.logger.buffers[i].value == st.logger.buffers[i].value.(read := st.logger.buffers[i].value.write)
    {
      if i in ids {
        var k :| 0 <= k < |ids| && ids[k] == i;
      }
    }
  }

  /** `stop`: only raises the flag; the loop notices it on its next turn. */
  function Stop(st: State): (st': State)
    ensures st'.stopFlag
    ensures st'.sink == st.sink && st'.logger == st.logger && st'.running == st.running
    ensures Valid(st) ==> Valid(st')
  {
    st.(stopFlag := true)
  }

  /** `flush_all_files`: flushes and closes every stream and empties the table; the loop is over.
      Records already written stay in their files. */
  function FlushAllFiles(st: State): (st': State)
    requires Valid(st)
    ensures Valid(st')
    ensures st'.sink.files == map[] && st'.sink.fs == st.sink.fs
    ensures !st'.running && st'.logger == st.logger
  {
    st.(sink := st.sink.(files := map[]), running := false)
  }

  /** One turn of `run`: with the flag clear, a drain round (the sleep that follows it is not
      modelled); with the flag set, leave the loop and flush. */
  function RunStep(st: State, rend: Renderers): (st': State)
    requires Valid(st) && st.running
    requires !st.stopFlag ==> RoundReady(st)
    ensures Valid(st')
    ensures st.stopFlag ==>
      (!st'.running && st'.sink.files == map[] && st'.sink.fs == st.sink.fs && st'.logger == st.logger)
    ensures !st.stopFlag ==>
      (&& st'.running && st'.sink.files == st.sink.files && st'.sink.fs.Keys == st.sink.fs.Keys
       && AllBound(st.sink.files, RoundMessages(st.logger))
       && (forall p :: p in st.sink.fs ==>
             st'.sink.fs[p] == st.sink.fs[p] + LinesFor(st.sink.files, RoundMessages(st.logger), p, rend))
       && (forall i :: 0 <= i < MAX_THREADS && st.logger.buffers[i].Some? ==>
             st'.logger.buffers[i].Some? && Pending(st'.logger.buffers[i].value) == []))
  {
    if st.stopFlag then FlushAllFiles(st) else DrainRound(st, rend)
  }

  /** Once the flag is seen, `run` performs no further drain: the buffers keep every message pushed
      since the last completed round, no file gets another line, and the table is emptied. */
  lemma StopSkipsFinalDrain(st: State, rend: Renderers)
    requires Valid(st) && st.running
    ensures var st' := RunStep(Stop(st), rend);
      && !st'.running
      && st'.sink.fs == st.sink.fs
      && st'.sink.files == map[]
      && st'.logger == st.logger
      && (forall i :: 0 <= i < MAX_THREADS && st.logger.buffers[i].Some? ==>
            Pending(st'.logger.buffers[i].value) == Pending(st.logger.buffers[i].value))
  {
  }

  /** With the flag clear, a round leaves every buffer with nothing pending. */
  lemma RoundEmptiesBuffers(st: State, rend: Renderers)
    requires Valid(st) && st.running && !st.stopFlag && RoundReady(st)
    ensures var st' := RunStep(st, rend);
      && st'.running
      && forall i :: 0 <= i < MAX_THREADS && st'.logger.buffers[i].Some? ==> Pending(st'.logger.buffers[i].value) == []
  {
  }
}

=== FILE: pattern_matching.dfy ===
/** `avx2_strchr` and `avx2_strstr` (PatternMatching.cpp) as chunked scans over a byte sequence.
    A 256-bit load at offset `p` is the slice `mem[p..p+32]`; `_mm256_cmpeq_epi8` followed by
    `_mm256_movemask_epi8` is the set of offsets in `[0, 32)` whose byte equals the broadcast one;
    `__builtin_ctz` is that set's least element and `mask &= mask - 1` removes it. A returned
    pointer is an offset from the start of `mem`; `nullptr` is `None`. */
module PatternMatching {
  import opened Wrappers
  import opened LogTypes

  const CHUNK: nat := 32

  /** `_mm256_movemask_epi8(_mm256_cmpeq_epi8(chunk, _mm256_set1_epi8(b)))`: bit `i` is set
      exactly when byte `i` of the chunk equals `b`. */
  function MoveMask(chunk: seq<byte>, b: byte): (m: set<nat>)
    requires |chunk| == CHUNK
    ensures forall i: nat :: i in m <==> i < CHUNK && chunk[i] == b
  {
    set i: nat | i < CHUNK && chunk[i] == b
  }

  predicate InChunk(m: set<nat>) {
    forall j :: j in m ==> j < CHUNK
  }

  /** `__builtin_ctz` of a non-zero mask: its lowest set bit. */
  function Ctz(m: set<nat>): (r: nat)
    requires m != {} && InChunk(m)
    ensures r in m && forall j :: j in m ==> r <= j
  {
    var w :| w in m;
    CtzFrom(m, 0, w)
  }

  function CtzFrom(m: set<nat>, k: nat, w: nat): (r: nat)
    requires InChunk(m) && w in m && k <= w
    ensures r in m && k <= r && forall j :: j in m && k <= j ==> r <= j
    decreases w - k
  {
    if k in m then k else CtzFrom(m, k + 1, w)
  }

  /** Index of the first `c` in `s`, or `|s|` when there is none. */
  function IndexOf(s: seq<byte>, c: byte): (r: nat)
    ensures r <= |s|
    ensures r < |s| ==> s[r] == c
    ensures forall k :: 0 <= k < r ==> s[k] != c
  {
    if |s| == 0 || s[0] == c then 0 else 1 + IndexOf(s[1..], c)
  }

  lemma IndexOfIs(s: seq<byte>, c: byte, j: nat)
    requires j <= |s| && (j < |s| ==> s[j] == c)
    requires forall k :: 0 <= k < j ==> s[k] != c
    ensures IndexOf(s, c) == j
  {
  }

  /** A multiple of 32 at or below `x` is at or below the start of `x`'s chunk. */
  lemma AlignedBelow(a: nat, x: nat)
    requires a % CHUNK == 0 && a <= x
    ensures a <= x - x % CHUNK
  {
    assert a == CHUNK * (a / CHUNK);
    assert x == CHUNK * (x / CHUNK) + x % CHUNK;
  }

  /** A multiple of 32 whose chunk holds `x` is the start of `x`'s chunk. */
  lemma AlignedStart(a: nat, x: nat)
    requires a % CHUNK == 0 && a <= x < a + CHUNK
    ensures x - x % CHUNK == a
  {
    AlignedBelow(a, x);
    assert a == CHUNK * (a / CHUNK);
    assert x == CHUNK * (x / CHUNK) + x % CHUNK;
  }

  // ---------------------------------------------------------------------------------------------
  // avx2_strchr

  /** One past the last byte of the 32-byte chunk (counted from `mem`'s start) that holds the
      terminator: `avx2_strchr` never looks further. */
  function ScanLimit(mem: seq<byte>): (e: nat)
    requires 0 in mem
    ensures StrLen(mem) < e <= StrLen(mem) + CHUNK && e % CHUNK == 0
  {
    var n := StrLen(mem);
    n - n % CHUNK + CHUNK
  }

  /** What `avx2_strchr` computes: the first `c` among the bytes up to the end of the chunk
      holding the terminator, so a `c` after the NUL in that same chunk is still found. */
  function StrchrSpec(mem: seq<byte>, c: byte): (r: Option<nat>)
    requires 0 in mem && ScanLimit(mem) <= |mem|
    ensures r.Some? ==> r.value < ScanLimit(mem) && mem[r.value] == c
    ensures r.Some? ==> forall k :: 0 <= k < r.value ==> mem[k] != c
    ensures r.None? <==> forall k :: 0 <= k < ScanLimit(mem) ==> mem[k] != c
  {
    var e := ScanLimit(mem);
    var j := IndexOf(mem[..e], c);
    if j < e then Some(j) else None
  }

  /** The C library's `strchr`: the first `c` among the string's bytes and its terminator. */
  function StdStrchr(mem: seq<byte>, c: byte): (r: Option<nat>)
    requires 0 in mem
    ensures r.Some? ==> r.value <= StrLen(mem) && mem[r.value] == c
    ensures r.Some? ==> forall k :: 0 <= k < r.value ==> mem[k] != c
    ensures r.None? <==> forall k :: 0 <= k <= StrLen(mem) ==> mem[k] != c
  {
    var n := StrLen(mem);
    var j := IndexOf(mem[..n + 1], c);
    if j <= n then Some(j) else None
  }

  /** The 32 bytes `_mm256_loadu_si256` reads at offset `pos`. */
  function Chunk(mem: seq<byte>, pos: nat): (chunk: seq<byte>)
    requires pos + CHUNK <= |mem|
    ensures |chunk| == CHUNK && forall i :: 0 <= i < CHUNK ==> chunk[i] == mem[pos + i]
  {
    mem[pos..pos + CHUNK]
  }

  /** Offsets below the mask's lowest bit hold other bytes. */
  lemma MaskBelow(mem: seq<byte>, pos: nat, b: byte, bound: nat)
    requires pos + CHUNK <= |mem| && bound <= CHUNK
    requires forall j :: j in MoveMask(Chunk(mem, pos), b) ==> bound <= j
    ensures forall k :: pos <= k < pos + bound ==> mem[k] != b
  {
    var chunk := Chunk(mem, pos);
    forall k | pos <= k < pos + bound ensures mem[k] != b {
      assert chunk[k - pos] == mem[k];
      assert k - pos !in MoveMask(chunk, b);
    }
  }

  /** What both scans know at the start of a chunk: it starts at a multiple of 32, no later
      than the terminator's chunk, and nothing before it matches. */
  predicate ScanFrom(mem: seq<byte>, c: byte, pos: nat)
    requires 0 in mem
  {
    var n := StrLen(mem);
    && pos % CHUNK == 0 && pos <= n - n % CHUNK
    && forall k :: 0 <= k < pos ==> mem[k] != c
  }

  lemma ChunkInBounds(mem: seq<byte>, c: byte, pos: nat)
    requires 0 in mem && ScanLimit(mem) <= |mem| && ScanFrom(mem, c, pos)
    ensures pos + CHUNK <= ScanLimit(mem)
  {
  }

  /** A chunk with neither the needle nor a NUL moves the scan to the next chunk. */
  lemma ScanAdvance(mem: seq<byte>, c: byte, pos: nat)
    requires 0 in mem && ScanLimit(mem) <= |mem| && ScanFrom(mem, c, pos)
    requires MoveMask(Chunk(mem, pos), c) == {} && MoveMask(Chunk(mem, pos), 0) == {}
    ensures ScanFrom(mem, c, pos + CHUNK)
  {
    MaskBelow(mem, pos, c, CHUNK);
    MaskBelow(mem, pos, 0, CHUNK);
    AlignedBelow(pos + CHUNK, StrLen(mem));
  }

  /** A chunk holding a NUL is the terminator's chunk, the last one either scan loads. */
  lemma NulChunkIsLast(mem: seq<byte>, c: byte, pos: nat)
    requires 0 in mem && ScanLimit(mem) <= |mem| && ScanFrom(mem, c, pos)
    requires MoveMask(Chunk(mem, pos), 0) != {}
    ensures pos <= StrLen(mem) < pos + CHUNK && pos + CHUNK == ScanLimit(mem)
    ensures StrLen(mem) == pos + Ctz(MoveMask(Chunk(mem, pos), 0))
  {
    var n := StrLen(mem);
    var z := Ctz(MoveMask(Chunk(mem, pos), 0));
    assert Chunk(mem, pos)[z] == 0;
    MaskBelow(mem, pos, 0, z);
    assert n == pos + z;
    AlignedStart(pos, n);
  }

  lemma StrchrHit(mem: seq<byte>, c: byte, pos: nat)
    requires 0 in mem && ScanLimit(mem) <= |mem| && ScanFrom(mem, c, pos)
    requires MoveMask(Chunk(mem, pos), c) != {}
    ensures StrchrSpec(mem, c) == Some(pos + Ctz(MoveMask(Chunk(mem, pos), c)))
  {
    var bit := Ctz(MoveMask(Chunk(mem, pos), c));
    MaskBelow(mem, pos, c, bit);
    IndexOfIs(mem[..ScanLimit(mem)], c, pos + bit);
  }

  lemma StrchrMiss(mem: seq<byte>, c: byte, pos: nat)
    requires 0 in mem && ScanLimit(mem) <= |mem| && ScanFrom(mem, c, pos)
    requires MoveMask(Chunk(mem, pos), c) == {} && MoveMask(Chunk(mem, pos), 0) != {}
    ensures StrchrSpec(mem, c) == None
  {
    NulChunkIsLast(mem, c, pos);
    MaskBelow(mem, pos, c, CHUNK);
    IndexOfIs(mem[..ScanLimit(mem)], c, ScanLimit(mem));
  }

  /** `avx2_strchr` as written: per chunk, a needle match is reported before the NUL test. The
      caller's memory must hold the whole chunk that contains the terminator. */
  method Strchr(mem: seq<byte>, c: byte) returns (r: Option<nat>)
    requires 0 in mem && ScanLimit(mem) <= |mem|
    ensures r == StrchrSpec(mem, c)
  {
    var pos: nat := 0;
    while true
      invariant ScanFrom(mem, c, pos)
      decreases ScanLimit(mem) - pos
    {
      ChunkInBounds(mem, c, pos);
      var chunk := Chunk(mem, pos);
      var zeroMask := MoveMask(chunk, 0);
      var matchMask := MoveMask(chunk, c);
      if matchMask != {} {
        StrchrHit(mem, c, pos);
        return Some(pos + Ctz(matchMask));
      }
      if zeroMask != {} {
        StrchrMiss(mem, c, pos);
        return None;
      }
      ScanAdvance(mem, c, pos);
      pos := pos + CHUNK;
    }
  }

  lemma StdStrchrHit(mem: seq<byte>, c: byte, pos: nat)
    requires 0 in mem && ScanLimit(mem) <= |mem| && ScanFrom(mem, c, pos)
    requires MoveMask(Chunk(mem, pos), c) != {}
    requires MoveMask(Chunk(mem, pos), 0) != {} ==>
      Ctz(MoveMask(Chunk(mem, pos), c)) <= Ctz(MoveMask(Chunk(mem, pos), 0))
    ensures StdStrchr(mem, c) == Some(pos + Ctz(MoveMask(Chunk(mem, pos), c)))
  {
    var bit := Ctz(MoveMask(Chunk(mem, pos), c));
    MaskBelow(mem, pos, c, bit);
    if MoveMask(Chunk(mem, pos), 0) == {} {
      MaskBelow(mem, pos, 0, CHUNK);
    } else {
      NulChunkIsLast(mem, c, pos);
    }
    IndexOfIs(mem[..StrLen(mem) + 1], c, pos + bit);
  }

  lemma StdStrchrMiss(mem: seq<byte>, c: byte, pos: nat)
    requires 0 in mem && ScanLimit(mem) <= |mem| && ScanFrom(mem, c, pos)
    requires MoveMask(Chunk(mem, pos), 0) != {}
    requires MoveMask(Chunk(mem, pos), c) != {} ==>
      Ctz(MoveMask(Chunk(mem, pos), c)) > Ctz(MoveMask(Chunk(mem, pos), 0))
    ensures StdStrchr(mem, c) == None
  {
    NulChunkIsLast(mem, c, pos);
    var z := Ctz(MoveMask(Chunk(mem, pos), 0));
    if MoveMask(Chunk(mem, pos), c) == {} {
      MaskBelow(mem, pos, c, CHUNK);
    } else {
      MaskBelow(mem, pos, c, z + 1);
    }
    IndexOfIs(mem[..StrLen(mem) + 1], c, StrLen(mem) + 1);
  }

  /** `avx2_strchr` with the NUL test ordered against the match, as `strchr` is meant to behave:
      a match counts only when it does not lie after the chunk's first NUL. */
  method StrchrCorrected(mem: seq<byte>, c: byte) returns (r: Option<nat>)
    requires 0 in mem && ScanLimit(mem) <= |mem|
    ensures r == StdStrchr(mem, c)
  {
    var pos: nat := 0;
    while true
      invariant ScanFrom(mem, c, pos)
      decreases ScanLimit(mem) - pos
    {
      ChunkInBounds(mem, c, pos);
      var chunk := Chunk(mem, pos);
      var zeroMask := MoveMask(chunk, 0);
      var matchMask := MoveMask(chunk, c);
      if matchMask != {} && (zeroMask == {} || Ctz(matchMask) <= Ctz(zeroMask)) {
        StdStrchrHit(mem, c, pos);
        return Some(pos + Ctz(matchMask));
      }
      if zeroMask != {} {
        StdStrchrMiss(mem, c, pos);
        return None;
      }
      ScanAdvance(mem, c, pos);
      pos := pos + CHUNK;
    }
  }

  /** A needle byte that occurs before the terminator is found at its first occurrence, as the
      C library's `strchr` would find it. */
  lemma StrchrFindsFirstBeforeNul(mem: seq<byte>, c: byte)
    requires 0 in mem && ScanLimit(mem) <= |mem|
    requires IndexOf(mem, c) < StrLen(mem)
    ensures StrchrSpec(mem, c) == Some(IndexOf(mem, c)) == StdStrchr(mem, c)
  {
    var j := IndexOf(mem, c);
    IndexOfIs(mem[..ScanLimit(mem)], c, j);
    IndexOfIs(mem[..StrLen(mem) + 1], c, j);
  }

  /** Searching for `'\0'` yields the terminator. */
  lemma StrchrNulFindsTerminator(mem: seq<byte>)
    requires 0 in mem && ScanLimit(mem) <= |mem|
    ensures StrchrSpec(mem, 0) == Some(StrLen(mem)) == StdStrchr(mem, 0)
  {
    IndexOfIs(mem[..ScanLimit(mem)], 0, StrLen(mem));
    IndexOfIs(mem[..StrLen(mem) + 1], 0, StrLen(mem));
  }

  /** `avx2_strchr` reports null exactly when neither the needle byte nor (for needle 0) the
      terminator occurs up to the end of the terminator's chunk; a needle byte after the
      terminator but inside its chunk is returned, where `strchr` returns null. */
  lemma StrchrPastTerminator(mem: seq<byte>, c: byte)
    requires 0 in mem && ScanLimit(mem) <= |mem|
    requires c != 0 && StrLen(mem) < IndexOf(mem, c) < ScanLimit(mem)
    ensures StrchrSpec(mem, c) == Some(IndexOf(mem, c))
    ensures StdStrchr(mem, c) == None
  {
    IndexOfIs(mem[..ScanLimit(mem)], c, IndexOf(mem, c));
  }

  /** A concrete input: the empty string followed by `'a'` in the same chunk. Searching it for
      `'a'` returns offset 1, one past the terminator. */
  lemma StrchrPastTerminatorExample()
    ensures var mem: seq<byte> := [0, 0x61] + seq(30, _ => 0);
      && 0 in mem && ScanLimit(mem) <= |mem|
      && StrchrSpec(mem, 0x61) == Some(1)
      && StdStrchr(mem, 0x61) == None
  {
    var mem: seq<byte> := [0, 0x61] + seq(30, _ => 0);
    assert mem[0] == 0 && mem[1] == 0x61;
    assert StrLen(mem) == 0;
    IndexOfIs(mem, 0x61, 1);
    StrchrPastTerminator(mem, 0x61);
  }

  // ---------------------------------------------------------------------------------------------
  // avx2_strstr

  /** The needle occurs in the haystack (its first `hayLen` bytes) at offset `i`. */
  predicate Occurs(mem: seq<byte>, hayLen: nat, needle: seq<byte>, i: nat)
    requires hayLen <= |mem|
  {
    i + |needle| <= hayLen && mem[i..i + |needle|] == needle
  }

  /** The naive search: the least offset at or after `i` where the needle occurs. */
  function FindFrom(mem: seq<byte>, hayLen: nat, needle: seq<byte>, i: nat): (r: Option<nat>)
    requires hayLen <= |mem|
    ensures r.Some? ==> i <= r.value && Occurs(mem, hayLen, needle, r.value)
    ensures r.Some? ==> forall k :: i <= k < r.value ==> !Occurs(mem, hayLen, needle, k)
    ensures r.None? ==> forall k :: i <= k ==> !Occurs(mem, hayLen, needle, k)
    decreases hayLen + 1 - i
  {
    if i + |needle| > hayLen then None
    else if mem[i..i + |needle|] == needle then Some(i)
    else FindFrom(mem, hayLen, needle, i + 1)
  }

  /** Offsets with no occurrence can be skipped. */
  lemma {:induction false} FindFromSkip(mem: seq<byte>, hayLen: nat, needle: seq<byte>, i: nat, j: nat)
    requires hayLen <= |mem| && i <= j
    requires forall k :: i <= k < j ==> !Occurs(mem, hayLen, needle, k)
    ensures FindFrom(mem, hayLen, needle, i) == FindFrom(mem, hayLen, needle, j)
    decreases j - i
  {
    if i < j {
      assert !Occurs(mem, hayLen, needle, i);
      if i + |needle| <= hayLen {
        FindFromSkip(mem, hayLen, needle, i + 1, j);
      } else {
        assert j + |needle| > hayLen;
      }
    }
  }

  /** An offset whose byte differs from the needle's first byte is no occurrence. */
  lemma FirstByteDiffers(mem: seq<byte>, hayLen: nat, needle: seq<byte>, i: nat)
    requires hayLen <= |mem| && |needle| > 0 && i < |mem| && mem[i] != needle[0]
    ensures !Occurs(mem, hayLen, needle, i)
  {
    if i + |needle| <= hayLen {
      assert mem[i..i + |needle|][0] == mem[i];
    }
  }

  /** One past the last byte the chunk loop of `avx2_strstr` loads when the last candidate
      offset is `last`. */
  function ScanEnd(last: nat): nat {
    last - last % CHUNK + CHUNK
  }

  /** The scalar tail loop of `avx2_strstr` from offset `start`: `steps` counts its iterations. */
  method ScalarTail(mem: seq<byte>, hayLen: nat, needle: seq<byte>, start: nat) returns (r: Option<nat>, steps: nat)
    requires hayLen <= |mem| && 0 < |needle| <= hayLen
    ensures r == FindFrom(mem, hayLen, needle, start)
    ensures steps == 0 <==> start > hayLen - |needle|
  {
    var last := hayLen - |needle|;
    var pos := start;
    steps := 0;
    while pos <= last
      invariant start <= pos && steps == pos - start
      invariant pos > start ==> start <= last
      invariant forall k :: start <= k < pos ==> !Occurs(mem, hayLen, needle, k)
      decreases last + 1 - pos
    {
      steps := steps + 1;
      if mem[pos] == needle[0] && mem[pos..pos + |needle|] == needle {
        FindFromSkip(mem, hayLen, needle, start, pos);
        return Some(pos), steps;
      }
      if mem[pos] != needle[0] {
        FirstByteDiffers(mem, hayLen, needle, pos);
      }
      pos := pos + 1;
    }
    FindFromSkip(mem, hayLen, needle, start, pos);
    r := None;
  }

  /** `avx2_strstr`: an empty needle is found at 0 and a needle longer than the haystack is
      not found; otherwise 32-byte chunks starting at multiples of 32 are scanned for the
      needle's first byte, candidates are tried lowest offset first with a bounds check and a
      comparison, and the scalar tail runs last. The result is the naive search's, and the tail
      never iterates. The loads may read up to 31 bytes past the haystack, so the caller's
      memory must reach the end of the last chunk scanned. */
  method Strstr(mem: seq<byte>, hayLen: nat, needle: seq<byte>) returns (r: Option<nat>, tailSteps: nat)
    requires hayLen <= |mem|
    requires 0 < |needle| <= hayLen ==> ScanEnd(hayLen - |needle|) <= |mem|
    ensures |needle| == 0 ==> r == Some(0)
    ensures hayLen < |needle| ==> r == None
    ensures r == FindFrom(mem, hayLen, needle, 0)
    ensures tailSteps == 0
  {
    if |needle| == 0 {
      assert Occurs(mem, hayLen, needle, 0);
      return Some(0), 0;
    }
    if hayLen < |needle| {
      return None, 0;
    }
    var first := needle[0];
    var pos: nat := 0;
    var last := hayLen - |needle|;
    while pos <= last
      invariant pos % CHUNK == 0
      invariant forall k :: 0 <= k < pos ==> !Occurs(mem, hayLen, needle, k)
      decreases last + 1 - pos
    {
      AlignedBelow(pos, last);
      var chunk := mem[pos..pos + CHUNK];
      var mask := MoveMask(chunk, first);
      forall k | pos <= k < pos + CHUNK && k - pos !in mask
        ensures !Occurs(mem, hayLen, needle, k)
      {
        assert chunk[k - pos] == mem[k];
        FirstByteDiffers(mem, hayLen, needle, k);
      }
      while mask != {}
        invariant mask <= MoveMask(chunk, first)
        invariant forall k :: pos <= k < pos + CHUNK && k - pos !in mask ==> !Occurs(mem, hayLen, needle, k)
        decreases |mask|
      {
        var bit := Ctz(mask);
        var idx := pos + bit;
        if idx + |needle| <= hayLen && mem[idx..idx + |needle|] == needle {
          forall k | pos <= k < idx ensures !Occurs(mem, hayLen, needle, k) {
            assert k - pos !in mask;
          }
          FindFromSkip(mem, hayLen, needle, 0, idx);
          return Some(idx), 0;
        }
        mask := mask - {bit};
      }
      pos := pos + CHUNK;
    }
    r, tailSteps := ScalarTail(mem, hayLen, needle, pos);
    FindFromSkip(mem, hayLen, needle, 0, pos);
  }
}

=== FILE: registry.dfy ===
/** The thread registry (`Logger` in logger.hpp): a counter handing out dense thread ids, one
    lazily created ring buffer per id, and each thread's cached id (its `thread_local` state). */
module Registry {
  import opened Wrappers
  import opened LogTypes
  import opened RingBuffer

  /** Identity of an operating-system thread. */
  type ThreadKey = nat

  /** `counter` is `_tid_counter`; `buffers` is `_buffers` (None for a null entry); `tids` maps
      each thread that has registered to the id its `thread_local` variables cache. */
  datatype Logger = Logger(counter: nat, buffers: seq<Option<Ring>>, tids: map<ThreadKey, nat>)

  /** `assert(myid < LOGGER_MAX_THREADS)` failing: the process aborts. */
  datatype RegistryError = TooManyThreads

  /** Buffer i, when present, is a well-formed ring that stamps thread id i. */
  predicate BuffersOk(bufs: seq<Option<Ring>>) {
    && |bufs| == MAX_THREADS
    && forall i :: 0 <= i < |bufs| && bufs[i].Some? ==> RingBuffer.Valid(bufs[i].value) && bufs[i].value.threadId == i
  }

  /** Ids are handed out densely, once per thread, below the bound, and each registered thread
      owns an existing buffer; no buffer exists for an id not yet handed out. */
  ghost predicate Valid(lg: Logger) {
    && BuffersOk(lg.buffers)
    && lg.counter <= MAX_THREADS
    && (forall i :: lg.counter <= i < MAX_THREADS ==> lg.buffers[i].None?)
    && (forall t :: t in lg.tids ==> lg.tids[t] < lg.counter && lg.buffers[lg.tids[t]].Some?)
    && (forall i :: 0 <= i < lg.counter ==> i in lg.tids.Values)
    && (forall t1, t2 :: t1 in lg.tids && t2 in lg.tids && t1 != t2 ==> lg.tids[t1] != lg.tids[t2])
  }

  /** The registry at start-up: counter 0, every buffer null, no thread registered. */
  function NewLogger(): (lg: Logger)
    ensures Valid(lg)
    ensures forall i :: 0 <= i < MAX_THREADS ==> lg.buffers[i].None?
    ensures lg.counter == 0 && lg.tids == map[]
  {
    Logger(0, seq(MAX_THREADS, _ => None), map[])
  }

  /** `_register_thread`: a thread's first call takes the counter value and increments the counter;
      the `static thread_local` makes every later call from that thread return the same id. An id at
      or above the bound fails the assertion. */
  function RegisterThread(lg: Logger, t: ThreadKey): (res: Result<(Logger, nat), RegistryError>)
    requires Valid(lg)
    ensures t in lg.tids ==> res == Ok((lg, lg.tids[t]))
    ensures t !in lg.tids ==> (res.Ok? <==> lg.counter < MAX_THREADS)
    ensures t !in lg.tids && res.Ok? ==>
      && res.value.1 == lg.counter
      && res.value.0 == lg.(counter := lg.counter + 1, tids := lg.tids[t := lg.counter])
  {
    if t in lg.tids then Ok((lg, lg.tids[t]))
    else
      var id := lg.counter;
      if id < MAX_THREADS then Ok((lg.(counter := id + 1, tids := lg.tids[t := id]), id))
      else Err(TooManyThreads)
  }

  /** `_get_or_create_buffer`: allocates a buffer for `tid` only when its entry is null. */
  function GetOrCreateBuffer(bufs: seq<Option<Ring>>, tid: nat): (r: seq<Option<Ring>>)
    requires BuffersOk(bufs) && tid < MAX_THREADS
    ensures BuffersOk(r)
    ensures r[tid].Some?
    ensures bufs[tid].Some? ==> r == bufs
    ensures bufs[tid].None? ==> r[tid].value.write == 0 && r[tid].value.read == 0
    ensures forall i :: 0 <= i < MAX_THREADS && i != tid ==> r[i] == bufs[i]
  {
    if bufs[tid].None? then bufs[tid := Some(NewRing(tid))] else bufs
  }

  /** A second call with the same id returns the same buffer and changes nothing. */
  lemma GetOrCreateIdempotent(bufs: seq<Option<Ring>>, tid: nat)
    requires BuffersOk(bufs) && tid < MAX_THREADS
    ensures GetOrCreateBuffer(GetOrCreateBuffer(bufs, tid), tid) == GetOrCreateBuffer(bufs, tid)
  {
  }

  /** Putting another well-formed ring for the same id in place of a present buffer keeps the
      registry valid. */
  lemma ReplaceBufferValid(lg: Logger, id: nat, r: Ring)
    requires Valid(lg) && id < MAX_THREADS && lg.buffers[id].Some?
    requires RingBuffer.Valid(r) && r.threadId == id
    ensures Valid(lg.(buffers := lg.buffers[id := Some(r)]))
  {
  }

  /** `get_buffer`: on a thread's first call, registers it and gets or creates the buffer for its
      id; afterwards the cached id (and so the same buffer) is returned with nothing changed.
      The buffer is identified by its id: the result's `buffers[id]`. */
  function GetBuffer(lg: Logger, t: ThreadKey): (res: Result<(Logger, nat), RegistryError>)
    requires Valid(lg)
    ensures res.Ok? ==> Valid(res.value.0) && t in res.value.0.tids && res.value.0.tids[t] == res.value.1
    ensures res.Ok? ==> res.value.1 < MAX_THREADS && res.value.0.buffers[res.value.1].Some?
    ensures t in lg.tids ==> res == Ok((lg, lg.tids[t]))
    ensures t !in lg.tids ==> (res.Ok? <==> lg.counter < MAX_THREADS)
    ensures t !in lg.tids && res.Ok? ==> res.value.1 == lg.counter && res.value.0.counter == lg.counter + 1
    ensures t !in lg.tids && res.Ok? ==> res.value.0.tids == lg.tids[t := lg.counter]
    ensures t !in lg.tids && res.Ok? ==> res.value.0.buffers[lg.counter] == Some(NewRing(lg.counter))
    ensures res.Ok? ==> forall i :: 0 <= i < MAX_THREADS && i != res.value.1 ==> res.value.0.buffers[i] == lg.buffers[i]
  {
    if t in lg.tids then Ok((lg, lg.tids[t]))
    else
      match RegisterThread(lg, t)
      case Err(e) => Err(e)
      case Ok((lg1, tid)) =>
        var lg2 := lg1.(buffers := GetOrCreateBuffer(lg1.buffers, tid));
        assert Valid(lg2) by {
          ValuesAfterAdd(lg.tids, t, tid);
          forall i | 0 <= i < lg2.counter ensures i in lg2.tids.Values {
            if i < tid {
              assert i in lg.tids.Values;
            }
          }
        }
        Ok((lg2, tid))
  }

  /** Idempotent registration: asking again from the same thread returns the same buffer and
      leaves the registry as it was. */
  lemma GetBufferIdempotent(lg: Logger, t: ThreadKey)
    requires Valid(lg)
    requires GetBuffer(lg, t).Ok?
    ensures var (lg1, id) := GetBuffer(lg, t).value; GetBuffer(lg1, t) == Ok((lg1, id))
  {
  }

  /** Distinct threads get distinct buffers, and the earlier one's buffer is left alone. */
  lemma DistinctThreadsDistinctBuffers(lg: Logger, t1: ThreadKey, t2: ThreadKey)
    requires Valid(lg) && t1 != t2
    requires GetBuffer(lg, t1).Ok?
    requires GetBuffer(GetBuffer(lg, t1).value.0, t2).Ok?
    ensures var (lg1, id1) := GetBuffer(lg, t1).value;
      var (lg2, id2) := GetBuffer(lg1, t2).value;
      id1 != id2 && lg2.buffers[id1] == lg1.buffers[id1]
  {
    var (lg1, id1) := GetBuffer(lg, t1).value;
    assert lg1.tids[t1] == id1;
    var (lg2, id2) := GetBuffer(lg1, t2).value;
    if t2 in lg1.tids {
      assert lg1.tids[t2] != lg1.tids[t1];
    } else {
      assert id1 < lg1.counter;
    }
  }

  /** Registering fresh threads one after another hands out 0, 1, 2, ...: the k-th fresh thread
      gets id k, and a fresh thread arriving once all MAX_THREADS ids are taken fails. */
  lemma FreshThreadGetsNextId(lg: Logger, t: ThreadKey)
    requires Valid(lg) && t !in lg.tids
    ensures lg.counter == |lg.tids|
    ensures lg.counter < MAX_THREADS ==> GetBuffer(lg, t) == Ok((GetBuffer(lg, t).value.0, |lg.tids|))
    ensures lg.counter == MAX_THREADS ==> GetBuffer(lg, t) == Err(TooManyThreads)
  {
    IdsAreDense(lg);
  }

  /** The ids in use are exactly 0 .. counter - 1, one per registered thread. */
  lemma IdsAreDense(lg: Logger)
    requires Valid(lg)
    ensures lg.tids.Values == Range(lg.counter)
    ensures |lg.tids| == lg.counter
  {
    var ids := Range(lg.counter);
    assert lg.tids.Values == ids;
    InjectiveMapCard(lg.tids);
  }

  /** The set {0, ..., n - 1}. */
  function Range(n: nat): (r: set<nat>)
    ensures forall i :: i in r <==> 0 <= i < n
    ensures |r| == n
  {
    if n == 0 then {} else
      var r := Range(n - 1);
      assert n - 1 !in r;
      r + {n - 1}
  }

  lemma ValuesAfterAdd(m: map<ThreadKey, nat>, k: ThreadKey, v: nat)
    requires k !in m
    ensures m[k := v].Values == m.Values + {v}
  {
    var m1 := m[k := v];
    forall x | x in m1.Values ensures x in m.Values + {v} {
      var a :| a in m1 && m1[a] == x;
      if a != k {
        assert m[a] == x;
      }
    }
    forall x | x in m.Values + {v} ensures x in m1.Values {
      if x in m.Values {
        var a :| a in m && m[a] == x;
        assert m1[a] == x;
      } else {
        assert m1[k] == x;
      }
    }
  }

  /** A map that sends distinct keys to distinct values has as many values as keys. */
  lemma {:induction false} InjectiveMapCard(m: map<ThreadKey, nat>)
    requires forall a, b :: a in m && b in m && a != b ==> m[a] != m[b]
    ensures |m.Values| == |m.Keys|
    decreases |m.Keys|
  {
    if |m.Keys| > 0 {
      var k :| k in m.Keys;
      var m' := map a | a in m && a != k :: m[a];
      assert m'.Keys == m.Keys - {k};
      InjectiveMapCard(m');
      assert m'[k := m[k]] == m;
      assert m[k] !in m'.Values;
      ValuesAfterAdd(m', k, m[k]);
    }
  }

  /** `for_each_buffer`: the ids of the non-null entries from `from` upward, in ascending index
      order; this is the order the visitor sees the buffers in. */
  function VisitOrder(bufs: seq<Option<Ring>>, from: nat): (ids: seq<nat>)
    requires from <= |bufs|
    ensures forall k :: 0 <= k < |ids| ==> from <= ids[k] < |bufs| && bufs[ids[k]].Some?
    ensures forall k, l :: 0 <= k < l < |ids| ==> ids[k] < ids[l]
    ensures forall i :: from <= i < |bufs| && bufs[i].Some? ==> i in ids
    decreases |bufs| - from
  {
    if from == |bufs| then []
    else if bufs[from].Some? then [from] + VisitOrder(bufs, from + 1)
    else VisitOrder(bufs, from + 1)
  }
}

=== FILE: ring_buffer.dfy ===
/** The per-thread ring buffer (`ThreadRingBuffer`): RING_SIZE slots and two unbounded cursors.
    Every operation is one atomic sequential step; producer/consumer interleaving is not modelled. */
module RingBuffer {
  import opened Wrappers
  import opened LogTypes

  /** `write` and `read` count every message ever pushed and consumed; the slot for cursor k is
      `k % RING_SIZE`. `threadId` is the id the buffer stamps on its messages. */
  datatype Ring = Ring(slots: seq<Record>, write: nat, read: nat, threadId: u32)

  predicate Valid(r: Ring) {
    |r.slots| == RING_SIZE && r.read <= r.write
  }

  /** The buffer a thread gets on registration: zeroed slots, both cursors at 0. */
  function NewRing(tid: u32): (r: Ring)
    ensures Valid(r) && r.threadId == tid
    ensures r.write == 0 && r.read == 0
  {
    Ring(seq(RING_SIZE, _ => ZeroMsg), 0, 0, tid)
  }

  /** The messages the consumer would receive, in order, if it drained now: the current contents of
      the slots under cursors read, read + 1, ..., write - 1. After an overflow some of these are
      the same slot read twice. */
  function Pending(r: Ring): (p: seq<Record>)
    requires Valid(r)
    ensures |p| == r.write - r.read
  {
    PendingFrom(r.slots, r.read, r.write)
  }

  function PendingFrom(slots: seq<Record>, a: nat, b: nat): (p: seq<Record>)
    requires |slots| == RING_SIZE && a <= b
    ensures |p| == b - a
    decreases b - a
  {
    if a == b then [] else [slots[a % RING_SIZE]] + PendingFrom(slots, a + 1, b)
  }

  /** The i-th pending message is the slot under cursor read + i. */
  lemma {:induction false} PendingFromIndex(slots: seq<Record>, a: nat, b: nat)
    requires |slots| == RING_SIZE && a <= b
    ensures forall i :: 0 <= i < b - a ==> PendingFrom(slots, a, b)[i] == slots[(a + i) % RING_SIZE]
    decreases b - a
  {
    if a < b {
      PendingFromIndex(slots, a + 1, b);
      var p := PendingFrom(slots, a, b);
      forall i | 0 <= i < b - a
        ensures p[i] == slots[(a + i) % RING_SIZE]
      {
        if i > 0 {
          assert p[i] == PendingFrom(slots, a + 1, b)[i - 1];
        }
      }
    }
  }

  lemma PendingIndex(r: Ring)
    requires Valid(r)
    ensures forall i :: 0 <= i < r.write - r.read ==> Pending(r)[i] == r.slots[(r.read + i) % RING_SIZE]
  {
    PendingFromIndex(r.slots, r.read, r.write);
  }

  /** The arguments of one `emplace` call: the stream (`log_id`), the format reference, the
      timestamp `read_tsc` would have returned, and the C++ arguments. */
  datatype Request = Request(logId: u32, fmt: FmtRef, timestamp: u64, args: seq<SourceArg>)

  /** `emplace` only compiles for at most MAX_ARGS arguments, and `strlen` needs NUL-terminated strings. */
  predicate RequestOk(q: Request) {
    |q.args| <= MAX_ARGS && AllSourceOk(q.args)
  }

  /** `emplace`: claims cursor `write`, stamps the slot `write % RING_SIZE` and encodes the
      arguments into it. A full buffer is not checked: the slot is simply overwritten. */
  function Emplace(r: Ring, q: Request): (r': Ring)
    requires Valid(r) && RequestOk(q)
    ensures Valid(r')
    ensures r'.write == r.write + 1 && r'.read == r.read && r'.threadId == r.threadId
    ensures forall j :: 0 <= j < RING_SIZE && j != r.write % RING_SIZE ==> r'.slots[j] == r.slots[j]
    ensures var m := r'.slots[r.write % RING_SIZE];
      && m.timestamp == q.timestamp && m.fmt == q.fmt && m.logId == q.logId
      && m.threadId == r.threadId
      && m.msgId == r.write % TWO_32
      && m.argCount == |q.args|
    ensures forall k :: 0 <= k < |q.args| ==>
      r'.slots[r.write % RING_SIZE].args[k] == SetArg(r.slots[r.write % RING_SIZE].args[k], q.args[k])
    ensures forall k :: |q.args| <= k < MAX_ARGS ==>
      r'.slots[r.write % RING_SIZE].args[k] == r.slots[r.write % RING_SIZE].args[k]
  {
    var idx := r.write;
    var slot := r.slots[idx % RING_SIZE];
    FillArgsKeepsWellFormed(slot.args, q.args);
    var msg := LogMsg(q.timestamp, q.fmt, FillArgs(slot.args, q.args), |q.args|,
                      r.threadId, idx % TWO_32, q.logId);
    r.(slots := r.slots[idx % RING_SIZE := msg], write := idx + 1)
  }

  /** The message `emplace` leaves in the buffer. */
  function Written(r: Ring, q: Request): Record
    requires Valid(r) && RequestOk(q)
  {
    Emplace(r, q).slots[r.write % RING_SIZE]
  }

  /** The outcome of `try_consume(out)`: the boolean, the out-parameter after the call, the buffer. */
  datatype Consumed = Consumed(ok: bool, out: Record, ring: Ring)

  /** `try_consume`: fails without touching anything when the cursors are equal; otherwise hands
      out the slot under the read cursor and advances it by one. */
  function TryConsume(r: Ring, out: Record): (c: Consumed)
    requires Valid(r)
    ensures Valid(c.ring)
    ensures c.ok <==> r.read != r.write
    ensures !c.ok ==> c.out == out && c.ring == r
    ensures c.ok ==> c.ring.read == r.read + 1
    ensures c.ok ==> c.ring.write == r.write && c.ring.slots == r.slots && c.ring.threadId == r.threadId
    ensures c.ok ==> Pending(r) == [c.out] + Pending(c.ring)
  {
    if r.read == r.write then Consumed(false, out, r)
    else
      var r' := r.(read := r.read + 1);
      assert Pending(r) == [r.slots[r.read % RING_SIZE]] + Pending(r');
      Consumed(true, r.slots[r.read % RING_SIZE], r')
  }

  /** Two cursors less than RING_SIZE apart select different slots. */
  lemma DistinctSlots(a: nat, b: nat)
    requires a < b < a + RING_SIZE
    ensures a % RING_SIZE != b % RING_SIZE
  {
  }

  /** While the producer stays within one lap of the consumer, a push appends exactly the message
      it wrote to the pending sequence and disturbs none of the pending ones. */
  lemma EmplaceAppends(r: Ring, q: Request)
    requires Valid(r) && RequestOk(q)
    requires r.write - r.read < RING_SIZE
    ensures Pending(Emplace(r, q)) == Pending(r) + [Written(r, q)]
  {
    var r' := Emplace(r, q);
    var p, p' := Pending(r), Pending(r');
    PendingIndex(r);
    PendingIndex(r');
    forall i | 0 <= i < |p|
      ensures p'[i] == p[i]
    {
      DistinctSlots(r.read + i, r.write);
    }
  }

  /** The consumer's inner loop `while (buf->try_consume(msg)) ...`: returns the messages in the
      order they were handed out and the buffer afterwards. */
  function Drain(r: Ring): (d: (seq<Record>, Ring))
    requires Valid(r)
    ensures Valid(d.1)
    ensures d.0 == Pending(r)
    ensures d.1.read == d.1.write == r.write
    ensures d.1.slots == r.slots && d.1.threadId == r.threadId
    decreases r.write - r.read
  {
    var c := TryConsume(r, ZeroMsg);
    if !c.ok then ([], r)
    else
      var rest := Drain(c.ring);
      ([c.out] + rest.0, rest.1)
  }

  /** With no pushes in between, `try_consume` succeeds exactly write - read times, even when the
      producer has lapped the consumer: lapped slots are not skipped, so each slot comes out once
      per lap with its current (newest) contents. */
  lemma DrainAfterOverflow(r: Ring)
    requires Valid(r)
    ensures |Drain(r).0| == r.write - r.read
    ensures forall i :: 0 <= i < r.write - r.read ==> Drain(r).0[i] == r.slots[(r.read + i) % RING_SIZE]
    ensures forall i :: 0 <= i && i + RING_SIZE < r.write - r.read ==> Drain(r).0[i] == Drain(r).0[i + RING_SIZE]
  {
    var p := Drain(r).0;
    assert p == Pending(r);
    PendingIndex(r);
    forall i | 0 <= i && i + RING_SIZE < r.write - r.read
      ensures p[i] == p[i + RING_SIZE]
    {
      LapSameSlot(r.read + i);
    }
  }

  lemma LapSameSlot(k: nat)
    ensures (k + RING_SIZE) % RING_SIZE == k % RING_SIZE
  {
  }

  /** One step of a single-threaded schedule: a producer push or a consumer poll. */
  datatype Op = Push(q: Request) | Pop

  predicate OpsOk(ops: seq<Op>) {
    forall k :: 0 <= k < |ops| ==> (ops[k].Push? ==> RequestOk(ops[k].q))
  }

  /** What a schedule produced: the messages polls returned, the messages pushes wrote, the buffer. */
  datatype Trace = Trace(popped: seq<Record>, pushed: seq<Record>, ring: Ring)

  function Run(r: Ring, ops: seq<Op>): (t: Trace)
    requires Valid(r) && OpsOk(ops)
    ensures Valid(t.ring)
    decreases |ops|
  {
    if |ops| == 0 then Trace([], [], r)
    else match ops[0]
      case Push(q) =>
        var t := Run(Emplace(r, q), ops[1..]);
        Trace(t.popped, [Written(r, q)] + t.pushed, t.ring)
      case Pop =>
        var c := TryConsume(r, ZeroMsg);
        var t := Run(c.ring, ops[1..]);
        Trace(if c.ok then [c.out] + t.popped else t.popped, t.pushed, t.ring)
  }

  /** Every push of the schedule happens while fewer than RING_SIZE messages are pending. */
  predicate NoLap(r: Ring, ops: seq<Op>)
    requires Valid(r) && OpsOk(ops)
    decreases |ops|
  {
    |ops| == 0 ||
    match ops[0]
    case Push(q) => r.write - r.read < RING_SIZE && NoLap(Emplace(r, q), ops[1..])
    case Pop => NoLap(TryConsume(r, ZeroMsg).ring, ops[1..])
  }

  /** FIFO: as long as the producer never laps the consumer, what the polls return followed by what
      is still pending is exactly what was pending before followed by what was pushed, in push order. */
  lemma {:induction false} FifoRoundTrip(r: Ring, ops: seq<Op>)
    requires Valid(r) && OpsOk(ops)
    requires NoLap(r, ops)
    ensures var t := Run(r, ops); t.popped + Pending(t.ring) == Pending(r) + t.pushed
    decreases |ops|
  {
    if |ops| > 0 {
      match ops[0]
      case Push(q) =>
        FifoRoundTrip(Emplace(r, q), ops[1..]);
        FifoPushStep(r, ops);
      case Pop =>
        FifoRoundTrip(TryConsume(r, ZeroMsg).ring, ops[1..]);
        FifoPopStep(r, ops);
    }
  }

  lemma RunPush(r: Ring, ops: seq<Op>)
    requires Valid(r) && OpsOk(ops) && |ops| > 0 && ops[0].Push?
    ensures var q := ops[0].q; var t1 := Run(Emplace(r, q), ops[1..]);
      Run(r, ops) == Trace(t1.popped, [Written(r, q)] + t1.pushed, t1.ring)
  {
  }

  lemma RunPop(r: Ring, ops: seq<Op>)
    requires Valid(r) && OpsOk(ops) && |ops| > 0 && ops[0].Pop?
    ensures var c := TryConsume(r, ZeroMsg); var t1 := Run(c.ring, ops[1..]);
      Run(r, ops) == Trace(if c.ok then [c.out] + t1.popped else t1.popped, t1.pushed, t1.ring)
  {
  }

  lemma FifoPushStep(r: Ring, ops: seq<Op>)
    requires Valid(r) && OpsOk(ops) && |ops| > 0 && ops[0].Push?
    requires r.write - r.read < RING_SIZE
    requires var t1 := Run(Emplace(r, ops[0].q), ops[1..]);
      t1.popped + Pending(t1.ring) == Pending(Emplace(r, ops[0].q)) + t1.pushed
    ensures var t := Run(r, ops); t.popped + Pending(t.ring) == Pending(r) + t.pushed
  {
    var q := ops[0].q;
    var t1 := Run(Emplace(r, q), ops[1..]);
    RunPush(r, ops);
    EmplaceAppends(r, q);
    SeqAssoc(Pending(r), [Written(r, q)], t1.pushed);
  }

  lemma FifoPopStep(r: Ring, ops: seq<Op>)
    requires Valid(r) && OpsOk(ops) && |ops| > 0 && ops[0].Pop?
    requires var t1 := Run(TryConsume(r, ZeroMsg).ring, ops[1..]);
      t1.popped + Pending(t1.ring) == Pending(TryConsume(r, ZeroMsg).ring) + t1.pushed
    ensures var t := Run(r, ops); t.popped + Pending(t.ring) == Pending(r) + t.pushed
  {
    var c := TryConsume(r, ZeroMsg);
    var t1 := Run(c.ring, ops[1..]);
    RunPop(r, ops);
    SeqAssoc([c.out], t1.popped, Pending(t1.ring));
    SeqAssoc([c.out], Pending(c.ring), t1.pushed);
  }

  /** Pushes `qs` one after another; returns the buffer and the messages written, in push order. */
  function PushAll(r: Ring, qs: seq<Request>): (t: (Ring, seq<Record>))
    requires Valid(r) && forall k :: 0 <= k < |qs| ==> RequestOk(qs[k])
    ensures Valid(t.0)
    ensures t.0.write == r.write + |qs| && t.0.read == r.read && t.0.threadId == r.threadId
    ensures |t.1| == |qs|
    decreases |qs|
  {
    if |qs| == 0 then (r, [])
    else
      var t0 := PushAll(r, qs[..|qs| - 1]);
      var q := qs[|qs| - 1];
      (Emplace(t0.0, q), t0.1 + [Written(t0.0, q)])
  }

  /** Of the pushes 0..m-1, the last one to land in the same slot as push j. */
  function LastWriter(j: nat, m: nat): (k: nat)
    requires j < m
    ensures j <= k < m && m <= k + RING_SIZE
    ensures (k - j) % RING_SIZE == 0
  {
    j + RING_SIZE * ((m - 1 - j) / RING_SIZE)
  }

  lemma SameSlotLastWriter(w: nat, j: nat, m: nat)
    requires j + 1 < m
    requires (w + j) % RING_SIZE == (w + m - 1) % RING_SIZE
    ensures LastWriter(j, m) == m - 1
  {
    assert (m - 1 - j) % RING_SIZE == 0;
  }

  lemma OtherSlotLastWriter(w: nat, j: nat, m: nat)
    requires j + 1 < m
    requires (w + j) % RING_SIZE != (w + m - 1) % RING_SIZE
    ensures LastWriter(j, m) == LastWriter(j, m - 1)
  {
    assert (m - 1 - j) % RING_SIZE != 0;
  }

  /** After a burst of pushes each slot holds the message of the last push that landed in it. */
  lemma {:induction false} SlotsAfterPushAll(r: Ring, qs: seq<Request>)
    requires Valid(r) && forall k :: 0 <= k < |qs| ==> RequestOk(qs[k])
    ensures var t := PushAll(r, qs);
      forall j :: 0 <= j < |qs| ==> t.0.slots[(r.write + j) % RING_SIZE] == t.1[LastWriter(j, |qs|)]
    decreases |qs|
  {
    if |qs| > 0 {
      var m := |qs|;
      var init := qs[..m - 1];
      var t0 := PushAll(r, init);
      var q := qs[m - 1];
      var t := PushAll(r, qs);
      assert t == (Emplace(t0.0, q), t0.1 + [Written(t0.0, q)]);
      SlotsAfterPushAll(r, init);
      forall j | 0 <= j < m
        ensures t.0.slots[(r.write + j) % RING_SIZE] == t.1[LastWriter(j, m)]
      {
        if j == m - 1 {
        } else if (r.write + j) % RING_SIZE == (r.write + m - 1) % RING_SIZE {
          SameSlotLastWriter(r.write, j, m);
        } else {
          OtherSlotLastWriter(r.write, j, m);
          assert t.0.slots[(r.write + j) % RING_SIZE] == t0.0.slots[(r.write + j) % RING_SIZE];
        }
      }
    }
  }

  /** The overflow law as the code has it: pushing m messages into an empty buffer and then draining
      yields m messages, not min(m, RING_SIZE); the i-th is whatever the last push into slot i's
      position wrote. With m <= RING_SIZE that is the i-th push; beyond that the newest messages
      come out more than once and the oldest m - RING_SIZE never do. */
  lemma OverflowDrain(r: Ring, qs: seq<Request>)
    requires Valid(r) && r.read == r.write
    requires forall k :: 0 <= k < |qs| ==> RequestOk(qs[k])
    ensures var t := PushAll(r, qs); var d := Drain(t.0);
      && |d.0| == |qs|
      && forall i :: 0 <= i < |qs| ==> d.0[i] == t.1[LastWriter(i, |qs|)]
  {
    var t := PushAll(r, qs);
    var ring, written := t.0, t.1;
    PendingIndex(ring);
    SlotsAfterPushAll(r, qs);
    SlotsInWriteOrder(Pending(ring), ring.slots, written, ring.read);
  }

  /** Reading the slots from `base` on yields, position by position, the last writer of each. */
  lemma SlotsInWriteOrder(p: seq<Record>, slots: seq<Record>, w: seq<Record>, base: nat)
    requires |p| == |w| && |slots| == RING_SIZE
    requires forall i :: 0 <= i < |p| ==> p[i] == slots[(base + i) % RING_SIZE]
    requires forall j :: 0 <= j < |w| ==> slots[(base + j) % RING_SIZE] == w[LastWriter(j, |w|)]
    ensures forall i :: 0 <= i < |p| ==> p[i] == w[LastWriter(i, |w|)]
  {
  }

  /** For a burst that fits, draining returns exactly the pushed messages in push order. */
  lemma BurstRoundTrip(r: Ring, qs: seq<Request>)
    requires Valid(r) && r.read == r.write
    requires forall k :: 0 <= k < |qs| ==> RequestOk(qs[k])
    requires |qs| <= RING_SIZE
    ensures Drain(PushAll(r, qs).0).0 == PushAll(r, qs).1
  {
    var t := PushAll(r, qs);
    OverflowDrain(r, qs);
    NoLapNoRepeat(Drain(t.0).0, t.1);
  }

  /** One push too many already breaks order: after RING_SIZE + 1 pushes into an empty buffer the
      drain starts with the newest message and returns it twice, while the first push is lost. */
  lemma OverflowByOne(r: Ring, qs: seq<Request>)
    requires Valid(r) && r.read == r.write
    requires forall k :: 0 <= k < |qs| ==> RequestOk(qs[k])
    requires |qs| == RING_SIZE + 1
    ensures var t := PushAll(r, qs); var d := Drain(t.0).0;
      && |d| == RING_SIZE + 1
      && d[0] == t.1[RING_SIZE] && d[RING_SIZE] == t.1[RING_SIZE]
      && forall i :: 1 <= i < RING_SIZE ==> d[i] == t.1[i]
  {
    var t := PushAll(r, qs);
    var d := Drain(t.0).0;
    OverflowDrain(r, qs);
    assert LastWriter(0, RING_SIZE + 1) == RING_SIZE;
    forall i | 1 <= i < RING_SIZE
      ensures d[i] == t.1[i]
    {
      assert LastWriter(i, RING_SIZE + 1) == i;
    }
  }

  lemma NoLapNoRepeat(p: seq<Record>, w: seq<Record>)
    requires |p| == |w| <= RING_SIZE
    requires forall i :: 0 <= i < |p| ==> p[i] == w[LastWriter(i, |w|)]
    ensures p == w
  {
    forall i | 0 <= i < |p|
      ensures p[i] == w[i]
    {
      assert LastWriter(i, |w|) == i;
    }
  }
}

=== FILE: wrappers.dfy ===
/** Failure-carrying return values and sequence facts used throughout the logger model. */
module Wrappers {

  /** A value that may be absent, in place of a null pointer. */
  datatype Option<+T> = None | Some(value: T)

  /** Either a value or the error that prevented it. */
  datatype Result<+T, +E> = Ok(value: T) | Err(error: E)

  /** Concatenation regroups freely; the one step the solver sometimes needs spelled out. */
  lemma SeqAssoc<T>(a: seq<T>, b: seq<T>, c: seq<T>)
    ensures a + b + c == a + (b + c)
  {
  }
}
